=== FILE: README.md ===
# pyRSM reciprocal-space-map core in Dafny

pyRSM turns stacks of area-detector frames from diffraction scans into
three-dimensional reciprocal space maps. This project models the pure core of
`pyRSM.py`:

- **`load_convert`**:
  - the scan's monitor channel (`Ion_Ch_4`) is normalised to mean one;
  - every detector frame is divided by its frame's monitor value;
  - the six diffractometer angles come from the measured channel or fall back to the positioner value repeated per frame;
  - a momentum transfer is attached to every pixel of every frame.
- **`rsm_convert`**:
  - a single scan number or a list of them is loaded, and the frames are stacked in list order;
  - only pixels of positive intensity are kept;
  - the bounding box is chosen, either as given or as the extent of all momentum transfers;
  - the gridded voxels below 0.01 are masked.
- **`rebin`**: crop each frame to whole `bins × bins` blocks and take the NaN-ignoring mean of each block.
- **`save_vtk` / `load_vtk`**: the layout and axis logic.
  - The volume is flattened first-axis-fastest, and the header records an origin, a spacing and the dimensions.
  - Reading reshapes the volume back and rebuilds each axis as `origin + i*spacing`.

Representation:

- **Values and arithmetic:**
  - Values are exact reals.
  - A missing value (`None`) stands for numpy's NaN, in the detector frames, in the measured channels and in the gridded voxels.
  - A division by a zero monitor value gives `None` as well, where numpy gives an infinity, or NaN for a zero pixel. "## Left out" says where this changes the gridder's input.
  - A momentum-transfer component is a value too, so a NaN angle can give a NaN `q`. numpy's `np.min` and `np.max` then return NaN, and a NaN bound compares false with every point.
- **Arrays:**
  - A numpy array of any rank is `NdArray` (shape plus row-major data).
  - Three-dimensional stacks are nested sequences (`Grid`).
  - Both memory orders use one index function, `Layout.Linear3`.
- **Function parameters:** these stand for the geometry library's pixel-to-momentum transform (`Ang2Q.area` with the diffractometer set-up), the `Gridder3D` binning, and the reading of a scan from disk.

Modules:

| file | module | models |
|---|---|---|
| wrappers.dfy | `Wrappers` | `Option` and `Result` |
| layout.dfy | `Layout` | index arithmetic of C and Fortran order |
| nanstats.dfy | `NanStats` | NaN-ignoring sums, counts and `nanmean` |
| grids.dfy | `Grids` | nested stacks, `vstack`, row-major flattening |
| ndarray.dfy | `NdArrays` | numpy arrays of any rank |
| rebin.dfy | `Rebinning` | `rebin` |
| voxelcodec.dfy | `VoxelCodec` | `save_vtk` / `load_vtk` layout and axes |
| loader.dfy | `FrameLoader` | `load_convert` |
| aggregate.dfy | `Aggregation` | the scan loop of `rsm_convert` |
| convert.dfy | `RsmConversion` | filtering, bounding box, gridding and masking in `rsm_convert` |

## Model

| member | source | states |
|---|---|---|
| Rebinning.Rebin | pyRSM.py:911-918 | An input that is not three-dimensional is rejected, as is a bin size that is not positive. Otherwise the result has the same frame count and is `height // bins` by `width // bins`. |
| Rebinning.Crop | pyRSM.py:920-925 | Cropping keeps each frame's first `h` rows and `w` columns unchanged. |
| Rebinning.RebinCell | pyRSM.py:920-932 | Output cell `(f,i,j)` is the NaN-ignoring mean of rows `i*bins..i*bins+bins-1` and columns `j*bins..j*bins+bins-1` of frame `f`. It is missing exactly when every pixel of that block is missing. |
| Rebinning.RebinBlocksCell | pyRSM.py:920-932 | The same cell law, stated on a stack cropped to any number of whole blocks that fit. |
| Rebinning.RebinIgnoresRemainder | pyRSM.py:920-925 | Two arrays of one shape that agree on the cropped extent rebin to the same result. Rows and columns beyond the last whole block never matter. |
| Rebinning.RebinWithin | pyRSM.py:931-932 | If every present input value lies in `[lo, hi]`, so does every present output value. |
| Rebinning.RebinBlocksWithin | pyRSM.py:931-932 | The same bound, stated on a stack cropped to any number of whole blocks that fit. |
| NanStats.NanMeanMissing | pyRSM.py:932 | `nanmean` is NaN exactly when every element is NaN. |
| NanStats.NanMeanBounds | pyRSM.py:932 | `nanmean` lies between any bounds of the present elements. |
| NdArrays.AsGrid | pyRSM.py:914 | A valid rank-3 array viewed as `(frames, height, width)` has row-major element `(f,i,j)` at flat position `j + width*(i + height*f)`. |
| NdArrays.AsGridFlattens | pyRSM.py:914 | Flattening the `(frames, height, width)` view row by row gives the array's data back, so the view and the flat data list the same elements in the same order. |
| VoxelCodec.FlattenF | pyRSM.py:828 | Flattening with `order="F"` puts element `(i,j,k)` at position `i + d0*(j + d1*k)`. The result has `d0*d1*d2` elements. |
| VoxelCodec.ReshapeF | pyRSM.py:885 | Reshaping with `order='F'` reads element `(i,j,k)` from position `i + d0*(j + d1*k)`. |
| VoxelCodec.ReshapeFlatten | pyRSM.py:885 | Reshaping the flattened volume gives the volume back. |
| VoxelCodec.FlattenReshape | pyRSM.py:828 | Flattening the reshaped scalars gives the scalars back. |
| VoxelCodec.Save | pyRSM.py:828-838 | Saving succeeds exactly when there are three axes of at least two points each. The origin is each axis's first point, and the spacing is its second point minus its first. The dimensions are the array shape, and the scalars are in column-major order. |
| VoxelCodec.Load | pyRSM.py:873-890 | Loading succeeds exactly when the scalar count is the product of the dimensions. The volume has the header's dimensions, and axis `a` is `dims[a]` points `origin[a] + i*spacing[a]`. |
| VoxelCodec.EvenAxisRebuilt | pyRSM.py:888-890 | Rebuilding an evenly spaced axis from its first point and spacing gives the same axis. |
| VoxelCodec.LoadAfterSave | pyRSM.py:828-890 | Loading a saved volume gives the same volume. Each axis comes back as its evenly spaced reconstruction, so an evenly spaced axis of the volume's length comes back unchanged. |
| VoxelCodec.SaveAfterLoad | pyRSM.py:831-890 | Saving a loaded image with dimensions of at least two gives the same image back. |
| FrameLoader.NormaliseMonitor | pyRSM.py:22-23 | The monitor is divided by `np.nanmean`, the mean of its present readings. A normalised value is present exactly when its reading is, and times that mean it gives the raw reading. When every reading is NaN, or the present ones average to zero, every value is missing. |
| FrameLoader.NormalisedMonitorAveragesOne | pyRSM.py:22-23 | When the NaN-ignoring mean is present and non-zero, the same readings stay present, and the normalised channel's NaN-ignoring mean is exactly one. |
| FrameLoader.MonitorExample | pyRSM.py:22-30 | Normalising the monitor `[2,4,6,8]` gives `[0.4,0.8,1.2,1.6]`, and a pixel of 10 in the first frame becomes 25. |
| FrameLoader.MonitorNanExample | pyRSM.py:22-30 | A NaN reading is skipped by the mean: `[2,NaN,6]` normalises by 4 to `[0.5,NaN,1.5]`, and the frame of the NaN reading becomes NaN. |
| FrameLoader.LoadFrames | pyRSM.py:26-33 | Loading succeeds exactly when every frame has a monitor value and an image numpy can broadcast into a detector frame: full size, one row, one column or one pixel. Pixel `(f,i,j)` is the broadcast raw pixel divided by the normalised monitor value of frame `f`. |
| FrameLoader.BroadcastPixels | pyRSM.py:30 | A full-size image is copied pixel for pixel; a single-row image repeats its row down the frame, and a single-column image repeats its column across it. |
| FrameLoader.FramesRestore | pyRSM.py:30 | A present pixel times its frame's monitor value is the raw pixel, so each frame is divided exactly once. |
| FrameLoader.AngleChannel | pyRSM.py:39-42 | The measured channel is used when the scan has one. Otherwise the positioner value is repeated `length` times. A name in neither place is an error. |
| FrameLoader.AngleChannelLength | pyRSM.py:39-67 | When the measured channels have the scan's length, every angle channel found has that length. |
| FrameLoader.AngleChannels | pyRSM.py:39-67 | The six angle lookups succeed exactly when every angle is measured or a positioner. Each channel is that angle's lookup. |
| FrameLoader.ChannelsMatch | pyRSM.py:85-86 | The channels are passed to the transform in the order mu, eta, chi, phi, nu, delta. At frame `f` each is the measured value or the positioner reading. |
| FrameLoader.LoadConvertSpec | pyRSM.py:14-87 | `load_convert` succeeds exactly when the scan is loadable. The images are the monitor-normalised frames. Pixel `(i,j)` of frame `f` gets the transform of the fixed diffractometer, frame `f`'s angles, the orientation matrix and the energy in eV. |
| FrameLoader.LoadConvertSucceeds | pyRSM.py:14-67 | `load_convert` succeeds exactly when the scan is loadable. It then gives `frames × 516 × 516` images and momentum transfers, with one frame per `Epoch` reading. |
| FrameLoader.LoadedImages | pyRSM.py:22-33 | Pixel `(i,j)` of loaded frame `f` is the raw pixel divided by the normalised monitor value of frame `f`. |
| FrameLoader.LoadedMomentum | pyRSM.py:39-86 | Pixel `(i,j)` of loaded frame `f` gets the transform of the fixed diffractometer, frame `f`'s angles in the order mu, eta, chi, phi, nu, delta, the orientation matrix and the energy in eV. |
| Aggregation.LoadAllSpec | pyRSM.py:102-108 | A list of scans succeeds exactly when every scan loads. Its images and momentum transfers are then each scan's stacked in list order. Otherwise the error names the first scan that fails. |
| Aggregation.SingleIsOneElementList | pyRSM.py:98-103 | An integer argument gives the same result as the one-element list holding it. |
| Aggregation.LoadAllAppend | pyRSM.py:104-108 | Loading `xs + ys` stacks the result for `ys` below the result for `xs`. |
| Aggregation.FramesInListOrder | pyRSM.py:104-108 | Frame `f` of scan `k` lands right after all frames of the scans before `k`. |
| Aggregation.LoadAllValid | pyRSM.py:104-108 | Stacking well-formed scans gives a well-formed stack, with images and momentum transfers of one shape. |
| Aggregation.AggregateValid | pyRSM.py:98-108 | The same holds for either form of the scan argument. |
| Aggregation.LoadConvertIsValidLoader | pyRSM.py:27-86 | Every scan `load_convert` returns has `frames × 516 × 516` images and momentum transfers. |
| RsmConversion.PositiveSamples | pyRSM.py:128-129 | Every sample handed to the gridder has positive intensity, and there are at most as many samples as pixels. |
| RsmConversion.PositiveSamplesMembers | pyRSM.py:128-129 | A sample reaches the gridder exactly when some pixel has that momentum transfer and that positive intensity. |
| RsmConversion.PositiveSamplesAppend | pyRSM.py:128-129 | Filtering the concatenation of two pixel lists gives the concatenation of the two filtered lists. |
| RsmConversion.StackSamplesMembers | pyRSM.py:127-129 | A sample reaches the gridder exactly when some pixel `(i,j)` of some stacked frame `f` has that momentum transfer and that positive intensity. |
| RsmConversion.NoPositivePixels | pyRSM.py:128 | Pixels that are missing, zero or negative yield no samples. |
| RsmConversion.MinOf | pyRSM.py:112-114 | `np.min` is NaN exactly when some element is NaN. Otherwise it is at most every element and equal to one of them. |
| RsmConversion.MaxOf | pyRSM.py:112-114 | `np.max` is NaN exactly when some element is NaN. Otherwise it is at least every element and equal to one of them. |
| RsmConversion.ChooseBox | pyRSM.py:111-118 | An explicit range is taken exactly as given. Without one, the choice fails exactly when there are no pixels. Otherwise each of the six bounds is NaN exactly when some pixel's component on that axis is NaN, and each bound is attained by some pixel. When no component is NaN, every pixel's momentum transfer lies inside the box. |
| RsmConversion.AutoBoxContains | pyRSM.py:111-114 | Without a range and with no NaN component, the automatic box exists and contains every pixel's momentum transfer. |
| RsmConversion.AutoBoxNan | pyRSM.py:111-114 | Without a range, one NaN component anywhere gives a box that contains no point at all. |
| RsmConversion.AutoBoxCountsDiscardedPixels | pyRSM.py:111-129 | Without a range, adding a zero-intensity pixel changes the box but not the samples. |
| RsmConversion.MaskVoxel | pyRSM.py:132 | A voxel becomes missing exactly when it is missing or below 0.01. Otherwise it is unchanged. |
| RsmConversion.Mask | pyRSM.py:132 | Masking keeps the grid's shape and masks each voxel independently. |
| RsmConversion.MaskIdempotent | pyRSM.py:132 | Masking twice equals masking once. |
| RsmConversion.MaskedVoxelsAboveThreshold | pyRSM.py:132 | After masking, a voxel is present exactly when it was present and at least 0.01, and then it is unchanged. |
| RsmConversion.RsmConvertSpec | pyRSM.py:98-137 | `rsm_convert` fails when a scan fails, and without a range it also fails when there are no pixels. Otherwise it succeeds exactly when the gridder succeeds. The gridder receives the resolution, the chosen box and only the positive samples. Without a range, the box contains every pixel's momentum transfer when none is NaN, and no point at all when one is. The output is the masked grid with the gridder's axes, plus the stacked frames only when `return_imgs` is set. |
| RsmConversion.RsmVoxelsAboveThreshold | pyRSM.py:131-132 | Every present voxel of the result is at least 0.01. |

The `hklrange` bounding box: the code takes the automatic box over every
pixel of every frame, including those the positive filter later discards.
So the automatic box is not the extent of the gridded samples:
`AutoBoxCountsDiscardedPixels` gives a zero-intensity pixel that widens it.

## Left out

- File access and format parsing are left out. This covers opening the spec file with silx, reading TIFF frames with PIL, building file paths, the directory creation in `save_vtk`, and the VTK writer and reader objects. A scan arrives as a `ScanInput` record (channels, positioners, orientation matrix, energy, images by frame number). A saved file is a `VoxelImage` value.
- Energy parsing from the scan header string is left out. The record carries the energy in keV, and the conversion to eV (×1000) is modelled.
- The orientation (UB) matrix extraction is left out. The record carries the matrix as read.
- The internals of `QConversion`, `HXRD` and `Ang2Q.area` (pyRSM.py:71-84) are foreign library code. The transform is a function parameter, applied to the fixed diffractometer set-up that `Instrument` records (axes, beam, detector centre, pixel count, pixel size, distance).
- The internals of `Gridder3D` (pyRSM.py:120-130) are foreign library code. The gridder is a function parameter receiving the resolution, the box and the samples. It returns `None` for whatever `Gridder3D` raises, such as a non-positive voxel count or a degenerate range. The model does not say which configurations those are. Its voxel values and axes are taken as returned.
- The plotly views, the slice animations and `make_gif` are presentation.
- IEEE floating-point rounding is left out. All arithmetic is over exact reals.
- FrameLoader.NormaliseMonitor: an infinite or NaN normalised value is modelled as missing, not as IEEE infinity. When every reading is NaN, every frame becomes NaN, as in numpy. When the mean is zero, numpy gives ±inf readings, so each finite pixel becomes ±0.0 and a zero reading gives NaN; the model makes every pixel missing. `imgs>0` drops both, so the gridder receives the same samples, and only the frames returned with `return_imgs` differ.
- FrameLoader.LoadFrames: a frame whose monitor reading is zero, while the mean is not, is divided by zero. numpy gives `+inf` for each positive raw pixel of that frame, and `imgs>0` keeps those pixels, so the program hands infinite intensities to `Gridder3D`. The model makes those pixels missing, and the positive filter drops them. IEEE infinities are not part of the value model.
- FrameLoader.LoadConvertSpec: every angle channel must have one value per frame. An inconsistent length is an `AngleLengthMismatch` error standing in for the geometry library's own shape check inside xrayutilities.
- FrameLoader.LoadFrames: an image of detector size, a single row, a single column or a single pixel is broadcast into the frame, as numpy assignment does. An image of any other shape, a missing image or a missing monitor value fails the scan. The Python code prints a message and returns `None`, and the caller then fails to unpack it. The model reports one error for both.
- Rebinning.Rebin: a zero or negative bin size is one error. Python raises a division error for zero and numpy a reshape error for negative sizes.
- VoxelCodec.Save: the volume is always three-dimensional, so the header error for arrays of other ranks does not arise.
- The defaults `h_n = k_n = l_n = 50` and `return_imgs = False` are not modelled as defaults. The resolution and the flag are always passed explicitly.
- The `file_name` argument of `rsm_convert` and `load_convert` is replaced by the loader function that reads scan `n`.

=== FILE: aggregate.dfy ===
/**
 * The scan loop of `rsm_convert`: one scan number, or a list of them, is
 * loaded scan by scan and the frames are stacked (`np.vstack`) along the
 * frame axis, images and momentum transfer alike. Loading one scan is a
 * function parameter; any scan that fails to load aborts the whole call.
 */
module Aggregation {
  import opened Wrappers
  import opened NanStats
  import opened Grids
  import opened FrameLoader

  /** `scan_list`: a single `int`, or a list of scan numbers. */
  datatype ScanList = Single(scan: int) | Listed(scans: seq<int>)

  datatype AggregateError =
    | EmptyScanList                          // `scan_list[0]` of an empty list
    | LoadFailed(scan: int, error: LoadError) // the first scan that does not load

  /** Reads and converts one scan (`load_convert(file_name, scan)`). */
  type Loader = int -> Result<ScanData, LoadError>

  /** `np.vstack` of two scans' images and of their momentum transfers. */
  function Stack(a: ScanData, b: ScanData): ScanData {
    ScanData(a.imgs + b.imgs, a.q + b.q)
  }

  predicate AllLoad(load: Loader, scans: seq<int>) {
    forall k | 0 <= k < |scans| :: load(scans[k]).Success?
  }

  /** Scan `k` is the first of `scans` that does not load. */
  predicate FirstFailure(load: Loader, scans: seq<int>, k: int) {
    && 0 <= k < |scans|
    && load(scans[k]).Failure?
    && forall k' | 0 <= k' < k :: load(scans[k']).Success?
  }

  /** The image stacks of the scans, in list order. */
  function ImgsOf(load: Loader, scans: seq<int>): (r: seq<Grid<Value>>)
    requires AllLoad(load, scans)
  {
    seq(|scans|, k requires 0 <= k < |scans| => load(scans[k]).value.imgs)
  }

  /** The momentum-transfer stacks of the scans, in list order. */
  function QsOf(load: Loader, scans: seq<int>): (r: seq<Grid<QVec>>)
    requires AllLoad(load, scans)
  {
    seq(|scans|, k requires 0 <= k < |scans| => load(scans[k]).value.q)
  }

  /**
   * The `for scan in scan_list[1:]` loop: `acc` holds the frames so far and
   * each further scan is stacked below it. The result is `acc` followed by
   * every scan's frames in list order, or the first scan that fails.
   */
  function StackScans(load: Loader, acc: ScanData, rest: seq<int>): (r: Result<ScanData, AggregateError>)
    ensures r.Success? <==> AllLoad(load, rest)
    ensures r.Success? ==> r.value == ScanData(acc.imgs + Concat(ImgsOf(load, rest)), acc.q + Concat(QsOf(load, rest)))
    ensures r.Failure? ==> exists k :: FirstFailure(load, rest, k) && r.error == LoadFailed(rest[k], load(rest[k]).error)
    decreases |rest|
  {
    if |rest| == 0 then Success(acc)
    else
      match load(rest[0])
      case Failure(e) =>
        assert FirstFailure(load, rest, 0);
        Failure(LoadFailed(rest[0], e))
      case Success(d) =>
        var r := StackScans(load, Stack(acc, d), rest[1..]);
        assert forall k | 0 <= k < |rest[1..]| :: rest[1..][k] == rest[k + 1];
        if r.Failure? then
          var k :| FirstFailure(load, rest[1..], k) && r.error == LoadFailed(rest[1..][k], load(rest[1..][k]).error);
          assert FirstFailure(load, rest, k + 1);
          r
        else
          PrependScan(load, rest);
          r
  }

  /** Per-scan stacks of a concatenated list are the per-scan stacks of each part. */
  lemma OfAppend(load: Loader, xs: seq<int>, ys: seq<int>)
    requires AllLoad(load, xs + ys)
    ensures AllLoad(load, xs) && AllLoad(load, ys)
    ensures ImgsOf(load, xs + ys) == ImgsOf(load, xs) + ImgsOf(load, ys)
    ensures QsOf(load, xs + ys) == QsOf(load, xs) + QsOf(load, ys)
  {
    forall k | 0 <= k < |xs|
      ensures load(xs[k]).Success?
    {
      assert xs[k] == (xs + ys)[k];
    }
    forall k | 0 <= k < |ys|
      ensures load(ys[k]).Success?
    {
      assert ys[k] == (xs + ys)[|xs| + k];
    }
  }

  lemma PrependScan(load: Loader, scans: seq<int>)
    requires |scans| > 0 && AllLoad(load, scans)
    ensures AllLoad(load, scans[1..])
    ensures Concat(ImgsOf(load, scans)) == load(scans[0]).value.imgs + Concat(ImgsOf(load, scans[1..]))
    ensures Concat(QsOf(load, scans)) == load(scans[0]).value.q + Concat(QsOf(load, scans[1..]))
  {
    var d := load(scans[0]).value;
    var head, tail := [scans[0]], scans[1..];
    assert scans == head + tail;
    OfAppend(load, head, tail);
    assert ImgsOf(load, head) == [d.imgs] && QsOf(load, head) == [d.q];
    ConcatAppend([d.imgs], ImgsOf(load, scans[1..]));
    ConcatAppend([d.q], QsOf(load, scans[1..]));
    assert Concat([d.imgs]) == Concat<seq<seq<Value>>>([]) + d.imgs;
    assert Concat([d.q]) == Concat<seq<seq<QVec>>>([]) + d.q;
  }

  /** A list of scans: the first is loaded, then the rest are stacked below it. */
  function LoadAll(load: Loader, scans: seq<int>): (r: Result<ScanData, AggregateError>)
    requires |scans| > 0
  {
    match load(scans[0])
    case Failure(e) => Failure(LoadFailed(scans[0], e))
    case Success(d) => StackScans(load, d, scans[1..])
  }

  /** The scan argument of `rsm_convert`: a single scan is loaded alone; a list must not be empty. */
  function Aggregate(load: Loader, list: ScanList): (r: Result<ScanData, AggregateError>)
  {
    match list
    case Single(n) =>
      (match load(n)
       case Failure(e) => Failure(LoadFailed(n, e))
       case Success(d) => Success(d))
    case Listed(scans) => if |scans| == 0 then Failure(EmptyScanList) else LoadAll(load, scans)
  }

  /**
   * A non-empty list succeeds exactly when every scan loads, and then holds
   * every scan's frames and momentum transfers stacked in list order;
   * otherwise it reports the first scan that fails.
   */
  lemma LoadAllSpec(load: Loader, scans: seq<int>)
    requires |scans| > 0
    ensures LoadAll(load, scans).Success? <==> AllLoad(load, scans)
    ensures LoadAll(load, scans).Success? ==>
      LoadAll(load, scans).value == ScanData(Concat(ImgsOf(load, scans)), Concat(QsOf(load, scans)))
    ensures LoadAll(load, scans).Failure? ==> exists k ::
      FirstFailure(load, scans, k) && LoadAll(load, scans).error == LoadFailed(scans[k], load(scans[k]).error)
  {
    var rest := scans[1..];
    assert forall k | 0 <= k < |rest| :: rest[k] == scans[k + 1];
    match load(scans[0])
    case Failure(e) =>
      assert FirstFailure(load, scans, 0);
    case Success(d) =>
      var r := StackScans(load, d, rest);
      if r.Failure? {
        var k :| FirstFailure(load, rest, k) && r.error == LoadFailed(rest[k], load(rest[k]).error);
        assert FirstFailure(load, scans, k + 1);
      } else {
        PrependScan(load, scans);
      }
  }

  /** An `int` argument behaves as the one-element list holding it. */
  lemma SingleIsOneElementList(load: Loader, n: int)
    ensures Aggregate(load, Single(n)) == Aggregate(load, Listed([n]))
  {
    assert [n][1..] == [];
    assert ImgsOf(load, []) == [] && QsOf(load, []) == [];
  }

  /** Loading `xs + ys` stacks the result for `ys` below the result for `xs`. */
  lemma LoadAllAppend(load: Loader, xs: seq<int>, ys: seq<int>)
    requires |xs| > 0 && |ys| > 0
    requires AllLoad(load, xs + ys)
    ensures LoadAll(load, xs).Success? && LoadAll(load, ys).Success?
    ensures LoadAll(load, xs + ys).value == Stack(LoadAll(load, xs).value, LoadAll(load, ys).value)
  {
    OfAppend(load, xs, ys);
    LoadAllSpec(load, xs);
    LoadAllSpec(load, ys);
    LoadAllSpec(load, xs + ys);
    ConcatAppend(ImgsOf(load, xs), ImgsOf(load, ys));
    ConcatAppend(QsOf(load, xs), QsOf(load, ys));
  }

  /**
   * Frame `f` of scan `k` lands at frame `n + f` of the stacked result,
   * where `n` is the number of frames of the scans before it.
   */
  lemma FramesInListOrder(load: Loader, scans: seq<int>, k: nat, f: nat)
    requires |scans| > 0 && AllLoad(load, scans)
    requires k < |scans| && f < |load(scans[k]).value.imgs|
    ensures AllLoad(load, scans[..k])
    ensures LoadAll(load, scans).Success?
    ensures var n := |Concat(ImgsOf(load, scans[..k]))|;
      n + f < |LoadAll(load, scans).value.imgs| &&
      LoadAll(load, scans).value.imgs[n + f] == load(scans[k]).value.imgs[f]
  {
    LoadAllSpec(load, scans);
    var before, here, after := scans[..k], [scans[k]], scans[k + 1..];
    assert scans == before + here + after;
    OfAppend(load, before + here, after);
    OfAppend(load, before, here);
    var d := load(scans[k]).value;
    assert ImgsOf(load, here) == [d.imgs];
    ConcatAppend(ImgsOf(load, before) + [d.imgs], ImgsOf(load, after));
    ConcatAppend(ImgsOf(load, before), [d.imgs]);
    assert Concat([d.imgs]) == Concat<seq<seq<Value>>>([]) + d.imgs;
  }

  /** When every scan's data is well formed, so is the stacked result. */
  lemma LoadAllValid(load: Loader, scans: seq<int>)
    requires |scans| > 0 && AllLoad(load, scans)
    requires forall k | 0 <= k < |scans| :: load(scans[k]).value.Valid()
    ensures LoadAll(load, scans).Success? && LoadAll(load, scans).value.Valid()
  {
    LoadAllSpec(load, scans);
    var imgs, qs := ImgsOf(load, scans), QsOf(load, scans);
    ConcatFramesShaped(imgs, Rows, Cols);
    ConcatFramesShaped(qs, Rows, Cols);
    ConcatLength(imgs, qs);
  }

  /** Every scan the loader reads is well formed, as `load_convert`'s are. */
  ghost predicate ValidLoader(load: Loader) {
    forall n :: load(n).Success? ==> load(n).value.Valid()
  }

  /** With a loader whose scans are well formed, the stacked scans are well formed. */
  lemma AggregateValid(load: Loader, list: ScanList)
    requires ValidLoader(load)
    ensures Aggregate(load, list).Success? ==> Aggregate(load, list).value.Valid()
  {
    if list.Listed? && |list.scans| > 0 {
      LoadAllSpec(load, list.scans);
      if AllLoad(load, list.scans) {
        forall k | 0 <= k < |list.scans|
          ensures load(list.scans[k]).value.Valid()
        {
          var n := list.scans[k];
          assert load(n).Success? ==> load(n).value.Valid();
        }
        LoadAllValid(load, list.scans);
      }
    }
  }

  /** `load_convert` as a loader: the scan number picks the scan that is read. */
  lemma LoadConvertIsValidLoader(fetch: int -> ScanInput, transform: Transform)
    ensures ValidLoader(n => LoadConvert(fetch(n), transform))
  {
    forall n | LoadConvert(fetch(n), transform).Success?
      ensures LoadConvert(fetch(n), transform).value.Valid()
    {
      LoadConvertSpec(fetch(n), transform);
    }
  }
}

=== FILE: convert.dfy ===
/**
 * `rsm_convert`: the stacked frames of all scans are turned into samples,
 * the samples with positive intensity are binned by a gridder over a
 * bounding box (given, or the extent of all momentum transfers), and voxels
 * below the occupancy threshold are masked. The gridder (`Gridder3D`) is a
 * function parameter.
 */
module RsmConversion {
  import opened Wrappers
  import opened NanStats
  import opened Grids
  import opened FrameLoader
  import opened Aggregation

  /** One pixel of one frame: its momentum transfer and its intensity. */
  datatype Sample = Sample(q: QVec, intensity: real)

  /**
   * `qx[flag], qy[flag], qz[flag], imgs[flag]` with `flag = imgs > 0`: the
   * pixels, in numpy's row-major order, whose intensity is positive. A
   * missing intensity compares false and is dropped.
   */
  function PositiveSamples(imgs: seq<Value>, q: seq<QVec>): (r: seq<Sample>)
    requires |imgs| == |q|
    ensures |r| <= |imgs|
    ensures forall k | 0 <= k < |r| :: r[k].intensity > 0.0
  {
    if |imgs| == 0 then []
    else
      var n := |imgs| - 1;
      PositiveSamples(imgs[..n], q[..n]) +
        (if imgs[n].Some? && imgs[n].value > 0.0 then [Sample(q[n], imgs[n].value)] else [])
  }

  /** A sample reaches the gridder exactly when some pixel carries it with a positive intensity. */
  lemma {:induction false} PositiveSamplesMembers(imgs: seq<Value>, q: seq<QVec>, s: Sample)
    requires |imgs| == |q|
    ensures s in PositiveSamples(imgs, q) <==>
      s.intensity > 0.0 && exists k :: 0 <= k < |imgs| && imgs[k] == Some(s.intensity) && q[k] == s.q
    decreases |imgs|
  {
    if |imgs| > 0 {
      var n := |imgs| - 1;
      PositiveSamplesMembers(imgs[..n], q[..n], s);
      if exists k :: 0 <= k < |imgs| && imgs[k] == Some(s.intensity) && q[k] == s.q {
        var k :| 0 <= k < |imgs| && imgs[k] == Some(s.intensity) && q[k] == s.q;
        if k < n {
          assert imgs[..n][k] == imgs[k] && q[..n][k] == q[k];
        }
      }
      if s in PositiveSamples(imgs[..n], q[..n]) {
        var k :| 0 <= k < n && imgs[..n][k] == Some(s.intensity) && q[..n][k] == s.q;
        assert imgs[k] == Some(s.intensity) && q[k] == s.q;
      }
    }
  }

  /** Filtering distributes over concatenation, so the samples of stacked scans come scan by scan. */
  lemma {:induction false} PositiveSamplesAppend(a: seq<Value>, qa: seq<QVec>, b: seq<Value>, qb: seq<QVec>)
    requires |a| == |qa| && |b| == |qb|
    ensures PositiveSamples(a + b, qa + qb) == PositiveSamples(a, qa) + PositiveSamples(b, qb)
    decreases |b|
  {
    if |b| == 0 {
      assert a + b == a && qa + qb == qa;
    } else {
      var n := |b| - 1;
      assert (a + b)[..|a + b| - 1] == a + b[..n];
      assert (qa + qb)[..|qa + qb| - 1] == qa + qb[..n];
      PositiveSamplesAppend(a, qa, b[..n], qb[..n]);
    }
  }

  /** Pixels that are missing, zero or negative contribute no samples. */
  lemma {:induction false} NoPositivePixels(imgs: seq<Value>, q: seq<QVec>)
    requires |imgs| == |q|
    requires forall k | 0 <= k < |imgs| :: imgs[k].None? || imgs[k].value <= 0.0
    ensures PositiveSamples(imgs, q) == []
    decreases |imgs|
  {
    if |imgs| > 0 {
      NoPositivePixels(imgs[..|imgs| - 1], q[..|q| - 1]);
    }
  }

  // ---------------------------------------------------------------------
  // Bounding box

  /** One axis of `dataRange`; a NaN bound is `None`. Every comparison with NaN is false, so a NaN bound contains nothing. */
  datatype Range = Range(lo: Value, hi: Value) {
    predicate Contains(x: Value) {
      x.Some? && lo.Some? && hi.Some? && lo.value <= x.value <= hi.value
    }
  }

  /** `dataRange(xmin, xmax, ymin, ymax, zmin, zmax)`: one range per axis of q. */
  datatype Box = Box(h: Range, k: Range, l: Range) {
    predicate Contains(v: QVec) { h.Contains(v.x) && k.Contains(v.y) && l.Contains(v.z) }
  }

  /** `np.min`: NaN when some element is NaN, otherwise the least element. */
  function MinOf(s: seq<Value>): (m: Value)
    requires |s| > 0
    ensures m.None? <==> exists k :: 0 <= k < |s| && s[k].None?
    ensures m.Some? ==> forall k | 0 <= k < |s| :: s[k].Some? && m.value <= s[k].value
    ensures exists k :: 0 <= k < |s| && s[k] == m
  {
    if |s| == 1 then s[0]
    else
      var m := MinOf(s[..|s| - 1]);
      assert forall k | 0 <= k < |s| - 1 :: s[..|s| - 1][k] == s[k];
      var last := s[|s| - 1];
      if m.None? then m
      else if last.None? || last.value < m.value then last
      else m
  }

  /** `np.max`: NaN when some element is NaN, otherwise the greatest element. */
  function MaxOf(s: seq<Value>): (m: Value)
    requires |s| > 0
    ensures m.None? <==> exists k :: 0 <= k < |s| && s[k].None?
    ensures m.Some? ==> forall k | 0 <= k < |s| :: s[k].Some? && s[k].value <= m.value
    ensures exists k :: 0 <= k < |s| && s[k] == m
  {
    if |s| == 1 then s[0]
    else
      var m := MaxOf(s[..|s| - 1]);
      assert forall k | 0 <= k < |s| - 1 :: s[..|s| - 1][k] == s[k];
      var last := s[|s| - 1];
      if m.None? then m
      else if last.None? || last.value > m.value then last
      else m
  }

  function Xs(q: seq<QVec>): (r: seq<Value>)
    ensures |r| == |q| && forall k | 0 <= k < |q| :: r[k] == q[k].x
  {
    seq(|q|, k requires 0 <= k < |q| => q[k].x)
  }

  function Ys(q: seq<QVec>): (r: seq<Value>)
    ensures |r| == |q| && forall k | 0 <= k < |q| :: r[k] == q[k].y
  {
    seq(|q|, k requires 0 <= k < |q| => q[k].y)
  }

  function Zs(q: seq<QVec>): (r: seq<Value>)
    ensures |r| == |q| && forall k | 0 <= k < |q| :: r[k] == q[k].z
  {
    seq(|q|, k requires 0 <= k < |q| => q[k].z)
  }

  datatype ConvertError =
    | ScansFailed(error: AggregateError)
    | NoData            // `np.min` of an empty array when no range is given
    | GridderFailed     // `Gridder3D` rejected its configuration or the samples

  /**
   * The bounding box: the given `hklrange`, or else per axis the least and
   * greatest momentum transfer over every pixel of every frame, whatever
   * its intensity. A NaN component on an axis makes both bounds of that
   * axis NaN, and such a box contains no point.
   */
  function ChooseBox(hklrange: Option<Box>, q: seq<QVec>): (r: Result<Box, ConvertError>)
    ensures hklrange.Some? ==> r == Success(hklrange.value)
    ensures hklrange.None? ==> (r.Success? <==> |q| > 0)
    ensures hklrange.None? && r.Success? ==>
      && (r.value.h.lo.None? <==> exists k :: 0 <= k < |q| && q[k].x.None?)
      && (r.value.h.hi.None? <==> exists k :: 0 <= k < |q| && q[k].x.None?)
      && (r.value.k.lo.None? <==> exists k :: 0 <= k < |q| && q[k].y.None?)
      && (r.value.k.hi.None? <==> exists k :: 0 <= k < |q| && q[k].y.None?)
      && (r.value.l.lo.None? <==> exists k :: 0 <= k < |q| && q[k].z.None?)
      && (r.value.l.hi.None? <==> exists k :: 0 <= k < |q| && q[k].z.None?)
    ensures hklrange.None? && r.Success? && (forall k | 0 <= k < |q| :: q[k].Present()) ==>
      forall k | 0 <= k < |q| :: r.value.Contains(q[k])
    ensures hklrange.None? && r.Success? ==>
      && (exists k :: 0 <= k < |q| && q[k].x == r.value.h.lo)
      && (exists k :: 0 <= k < |q| && q[k].x == r.value.h.hi)
      && (exists k :: 0 <= k < |q| && q[k].y == r.value.k.lo)
      && (exists k :: 0 <= k < |q| && q[k].y == r.value.k.hi)
      && (exists k :: 0 <= k < |q| && q[k].z == r.value.l.lo)
      && (exists k :: 0 <= k < |q| && q[k].z == r.value.l.hi)
  {
    match hklrange
    case Some(box) => Success(box)
    case None =>
      if |q| == 0 then Failure(NoData)
      else
        var xs, ys, zs := Xs(q), Ys(q), Zs(q);
        Success(Box(Range(MinOf(xs), MaxOf(xs)), Range(MinOf(ys), MaxOf(ys)), Range(MinOf(zs), MaxOf(zs))))
  }

  /** With no range given and every momentum transfer free of NaN, the box holds every pixel's momentum transfer. */
  lemma AutoBoxContains(q: seq<QVec>)
    requires |q| > 0 && forall k | 0 <= k < |q| :: q[k].Present()
    ensures ChooseBox(None, q).Success?
    ensures forall k | 0 <= k < |q| :: ChooseBox(None, q).value.Contains(q[k])
  {
  }

  /** With no range given, one NaN component anywhere makes the box contain no point at all, as numpy's NaN bounds compare false. */
  lemma AutoBoxNan(q: seq<QVec>, k: nat)
    requires k < |q| && !q[k].Present()
    ensures ChooseBox(None, q).Success?
    ensures forall v: QVec :: !ChooseBox(None, q).value.Contains(v)
  {
    var box := ChooseBox(None, q).value;
    if q[k].x.None? {
      assert box.h.lo.None?;
    } else if q[k].y.None? {
      assert box.k.lo.None?;
    } else {
      assert box.l.lo.None?;
    }
  }

  /**
   * With no range given, a pixel that never reaches the gridder (here one of
   * zero intensity) still widens the box.
   */
  lemma AutoBoxCountsDiscardedPixels()
    ensures var q1 := [QVec(Some(0.0), Some(0.0), Some(0.0))];
      var q2 := q1 + [QVec(Some(1.0), Some(0.0), Some(0.0))];
      var i1 := [Some(1.0)];
      var i2 := i1 + [Some(0.0)];
      && PositiveSamples(i2, q2) == PositiveSamples(i1, q1)
      && ChooseBox(None, q2) != ChooseBox(None, q1)
  {
    var q1 := [QVec(Some(0.0), Some(0.0), Some(0.0))];
    var q2 := q1 + [QVec(Some(1.0), Some(0.0), Some(0.0))];
    var i1: seq<Value> := [Some(1.0)];
    var i2 := i1 + [Some(0.0)];
    assert PositiveSamples(i2, q2) == PositiveSamples(i1, q1) by {
      assert i2[..1] == i1 && q2[..1] == q1;
    }
    assert ChooseBox(None, q1).value.h.hi == Some(0.0) by {
      assert Xs(q1) == [Some(0.0)];
    }
    assert ChooseBox(None, q2).value.h.hi != Some(0.0) by {
      AutoBoxContains(q2);
      assert ChooseBox(None, q2).value.Contains(q2[1]);
    }
  }

  // ---------------------------------------------------------------------
  // Masking

  /** `grid_data[grid_data < 0.01] = np.nan`. */
  const MaskThreshold: real := 0.01

  function MaskVoxel(v: Value): (r: Value)
    ensures r.None? <==> (v.None? || v.value < MaskThreshold)
    ensures r.Some? ==> r == v
  {
    if v.Some? && v.value < MaskThreshold then None else v
  }

  /** Every voxel below the threshold becomes missing; every other voxel is kept. */
  function Mask(g: Grid<Value>): (r: Grid<Value>)
    ensures SameShape(r, g)
    ensures forall f, i, j | 0 <= f < |g| && 0 <= i < |g[f]| && 0 <= j < |g[f][i]| ::
      r[f][i][j] == MaskVoxel(g[f][i][j])
  {
    seq(|g|, f requires 0 <= f < |g| =>
      seq(|g[f]|, i requires 0 <= i < |g[f]| =>
        seq(|g[f][i]|, j requires 0 <= j < |g[f][i]| => MaskVoxel(g[f][i][j]))))
  }

  /** Masking twice masks nothing more. */
  lemma MaskIdempotent(g: Grid<Value>)
    ensures Mask(Mask(g)) == Mask(g)
  {
    var m := Mask(g);
    var mm := Mask(m);
    forall f | 0 <= f < |g|
      ensures mm[f] == m[f]
    {
      forall i | 0 <= i < |g[f]|
        ensures mm[f][i] == m[f][i]
      {
        assert forall j | 0 <= j < |g[f][i]| :: mm[f][i][j] == MaskVoxel(MaskVoxel(g[f][i][j]));
      }
    }
  }

  /** After masking, every present voxel is at least the threshold and equals the voxel before masking. */
  lemma MaskedVoxelsAboveThreshold(g: Grid<Value>, f: nat, i: nat, j: nat)
    requires f < |g| && i < |g[f]| && j < |g[f][i]|
    ensures Mask(g)[f][i][j].Some? <==> (g[f][i][j].Some? && g[f][i][j].value >= MaskThreshold)
    ensures Mask(g)[f][i][j].Some? ==> Mask(g)[f][i][j] == g[f][i][j]
  {
  }

  // ---------------------------------------------------------------------
  // The conversion

  /** `(h_n, k_n, l_n)`: voxels per axis. */
  datatype Resolution = Resolution(nh: int, nk: int, nl: int)

  /** What `Gridder3D` hands back: `gridder.data` and its three axes. */
  datatype GridOutput = GridOutput(data: Grid<Value>, axes: seq<seq<real>>)

  /**
   * `Gridder3D(nx, ny, nz)` with a fixed `dataRange`, applied to a list of
   * samples. `None` stands for whatever the gridder raises (a non-positive
   * voxel count or a degenerate range, say).
   */
  type Gridder = (Resolution, Box, seq<Sample>) -> Option<GridOutput>

  /** `grid_data, coords`, and with `return_imgs` the stacked frames as well. */
  datatype Rsm = Rsm(data: Grid<Value>, coords: seq<seq<real>>, frames: Option<ScanData>)

  /** `rsm_convert(file_name, scan_list, h_n, k_n, l_n, return_imgs, hklrange)` over already-read scans. */
  function RsmConvert(load: Loader, list: ScanList, res: Resolution, returnImgs: bool,
                      hklrange: Option<Box>, gridder: Gridder): (r: Result<Rsm, ConvertError>)
    requires ValidLoader(load)
  {
    AggregateValid(load, list);
    match Aggregate(load, list)
    case Failure(e) => Failure(ScansFailed(e))
    case Success(scans) =>
      var box :- ChooseBox(hklrange, Flatten3(scans.q));
      match gridder(res, box, StackSamples(scans))
      case None => Failure(GridderFailed)
      case Some(out) =>
        Success(Rsm(Mask(out.data), out.axes, if returnImgs then Some(scans) else None))
  }

  /** The samples of the stacked frames, when images and momentum transfers have one shape. */
  function StackSamples(scans: ScanData): (r: seq<Sample>)
    requires scans.Valid()
  {
    ValidSameShape(scans);
    Flatten3Length(scans.imgs, scans.q);
    PositiveSamples(Flatten3(scans.imgs), Flatten3(scans.q))
  }

  /**
   * A sample reaches the gridder exactly when some pixel `(i, j)` of some
   * stacked frame `f` has that momentum transfer and that positive
   * intensity.
   */
  lemma StackSamplesMembers(scans: ScanData, s: Sample)
    requires scans.Valid()
    ensures s in StackSamples(scans) <==>
      && s.intensity > 0.0
      && exists f, i, j ::
           && 0 <= f < |scans.imgs| && 0 <= i < Rows && 0 <= j < Cols
           && scans.imgs[f][i][j] == Some(s.intensity)
           && scans.q[f][i][j] == s.q
  {
    var imgs, q := scans.imgs, scans.q;
    ValidSameShape(scans);
    Flatten3Length(imgs, q);
    var z := Zip3(imgs, q);
    var p := (Some(s.intensity), s.q);
    PositiveSamplesMembers(Flatten3(imgs), Flatten3(q), s);
    Flatten3Paired(z, imgs, q);
    PairedMembers(Flatten3(z), Flatten3(imgs), Flatten3(q), p);
    Flatten3ZipMembers(imgs, q, p);
  }

  /**
   * The conversion fails exactly when a scan fails, when no range is given
   * and there is no pixel to take the extent of, or when the gridder fails.
   * Otherwise the gridder sees only the positive samples and the chosen
   * box, its voxels are masked, its axes are returned as they are, and the
   * frames are returned only when asked for.
   */
  lemma RsmConvertSpec(load: Loader, list: ScanList, res: Resolution, returnImgs: bool,
                       hklrange: Option<Box>, gridder: Gridder)
    requires ValidLoader(load)
    ensures Aggregate(load, list).Success? ==> Aggregate(load, list).value.Valid()
    ensures var r := RsmConvert(load, list, res, returnImgs, hklrange, gridder);
      var a := Aggregate(load, list);
      && (a.Failure? ==> r == Failure(ScansFailed(a.error)))
      && (a.Success? && hklrange.None? && |Flatten3(a.value.q)| == 0 ==> r == Failure(NoData))
      && (a.Success? && (hklrange.Some? || |Flatten3(a.value.q)| > 0) ==>
            a.value.Valid() &&
            var box := ChooseBox(hklrange, Flatten3(a.value.q)).value;
            (r.Success? <==> gridder(res, box, StackSamples(a.value)).Some?) &&
            (r.Failure? ==> r.error == GridderFailed))
      && (r.Success? ==>
            var box := ChooseBox(hklrange, Flatten3(a.value.q)).value;
            a.value.Valid() &&
            gridder(res, box, StackSamples(a.value)).Some? &&
            var out := gridder(res, box, StackSamples(a.value)).value;
            && r.value.data == Mask(out.data)
            && r.value.coords == out.axes
            && r.value.frames == (if returnImgs then Some(a.value) else None)
            && (hklrange.Some? ==> box == hklrange.value)
            && var qs := Flatten3(a.value.q);
            && (hklrange.None? && (forall k | 0 <= k < |qs| :: qs[k].Present()) ==>
                  forall k | 0 <= k < |qs| :: box.Contains(qs[k]))
            && (hklrange.None? && (exists k :: 0 <= k < |qs| && !qs[k].Present()) ==>
                  forall v: QVec :: !box.Contains(v)))
  {
    AggregateValid(load, list);
    var a := Aggregate(load, list);
    if a.Success? && hklrange.None? && |Flatten3(a.value.q)| > 0 {
      var qs := Flatten3(a.value.q);
      if exists k :: 0 <= k < |qs| && !qs[k].Present() {
        var k :| 0 <= k < |qs| && !qs[k].Present();
        AutoBoxNan(qs, k);
      } else {
        AutoBoxContains(qs);
      }
    }
  }

  /** Every present voxel of the result is at least the occupancy threshold. */
  lemma RsmVoxelsAboveThreshold(load: Loader, list: ScanList, res: Resolution, returnImgs: bool,
                                hklrange: Option<Box>, gridder: Gridder, f: nat, i: nat, j: nat)
    requires ValidLoader(load)
    requires RsmConvert(load, list, res, returnImgs, hklrange, gridder).Success?
    requires var d := RsmConvert(load, list, res, returnImgs, hklrange, gridder).value.data;
      f < |d| && i < |d[f]| && j < |d[f][i]|
    ensures var d := RsmConvert(load, list, res, returnImgs, hklrange, gridder).value.data;
      d[f][i][j].Some? ==> d[f][i][j].value >= MaskThreshold
  {
    AggregateValid(load, list);
  }
}

=== FILE: grids.dfy ===
/**
 * Three-dimensional arrays as nested sequences: `g[f][i][j]` is numpy's
 * `g[f, i, j]`. A numpy array is always rectangular; `Shaped` states it.
 */
module Grids {
  import opened Layout

  type Grid<T> = seq<seq<seq<T>>>

  /** `g` has exactly the extents `d0 × d1 × d2`. */
  predicate Shaped<T>(g: Grid<T>, d0: nat, d1: nat, d2: nat) {
    && |g| == d0
    && (forall f | 0 <= f < d0 :: |g[f]| == d1)
    && (forall f, i | 0 <= f < d0 && 0 <= i < d1 :: |g[f][i]| == d2)
  }

  /** Every frame of the stack `g` is `h × w`, whatever the frame count. */
  predicate FramesShaped<T>(g: Grid<T>, h: nat, w: nat) {
    Shaped(g, |g|, h, w)
  }

  /** Two stacks have the same shape. */
  predicate SameShape<T, U>(a: Grid<T>, b: Grid<U>) {
    && |a| == |b|
    && (forall f | 0 <= f < |a| :: |a[f]| == |b[f]|)
    && (forall f, i | 0 <= f < |a| && 0 <= i < |a[f]| :: |a[f][i]| == |b[f][i]|)
  }

  /** Concatenation of a sequence of sequences, in order. */
  function Concat<T>(ss: seq<seq<T>>): seq<T> {
    if |ss| == 0 then [] else Concat(ss[..|ss| - 1]) + ss[|ss| - 1]
  }

  lemma {:induction false} ConcatAppend<T>(a: seq<seq<T>>, b: seq<seq<T>>)
    ensures Concat(a + b) == Concat(a) + Concat(b)
    decreases |b|
  {
    if |b| > 0 {
      assert (a + b)[..|a + b| - 1] == a + b[..|b| - 1];
      ConcatAppend(a, b[..|b| - 1]);
    } else {
      assert a + b == a;
    }
  }

  /** numpy's row-major (C order) enumeration of a stack: frame by frame, row by row. */
  function Flatten3<T>(g: Grid<T>): seq<T> {
    if |g| == 0 then [] else Flatten3(g[..|g| - 1]) + Concat(g[|g| - 1])
  }

  /** The rows of every frame, each frame's rows concatenated. */
  function FrameRows<T>(g: Grid<T>): seq<seq<T>> {
    seq(|g|, f requires 0 <= f < |g| => Concat(g[f]))
  }

  /** Flattening a stack concatenates its frames, each flattened row by row. */
  lemma {:induction false} Flatten3Frames<T>(g: Grid<T>)
    ensures Flatten3(g) == Concat(FrameRows(g))
    decreases |g|
  {
    if |g| > 0 {
      Flatten3Frames(g[..|g| - 1]);
      assert FrameRows(g)[..|g| - 1] == FrameRows(g[..|g| - 1]);
    }
  }

  lemma {:induction false} ConcatLength<T, U>(a: seq<seq<T>>, b: seq<seq<U>>)
    requires |a| == |b| && forall i | 0 <= i < |a| :: |a[i]| == |b[i]|
    ensures |Concat(a)| == |Concat(b)|
    decreases |a|
  {
    if |a| > 0 {
      ConcatLength(a[..|a| - 1], b[..|b| - 1]);
    }
  }

  /** Stacks of the same shape flatten to sequences of the same length, so they pair element by element. */
  lemma {:induction false} Flatten3Length<T, U>(a: Grid<T>, b: Grid<U>)
    requires SameShape(a, b)
    ensures |Flatten3(a)| == |Flatten3(b)|
    decreases |a|
  {
    if |a| > 0 {
      Flatten3Length(a[..|a| - 1], b[..|b| - 1]);
      ConcatLength(a[|a| - 1], b[|b| - 1]);
    }
  }

  /** An element of a stack occurs in its flattening, and nothing else does. */
  lemma {:induction false} Flatten3Members<T>(g: Grid<T>, x: T)
    ensures x in Flatten3(g) <==> exists f, i, j :: 0 <= f < |g| && 0 <= i < |g[f]| && 0 <= j < |g[f][i]| && g[f][i][j] == x
    decreases |g|
  {
    if |g| > 0 {
      var init := g[..|g| - 1];
      Flatten3Members(init, x);
      ConcatMembers(g[|g| - 1], x);
      if x in Flatten3(g) {
        if x in Flatten3(init) {
          var f, i, j :| 0 <= f < |init| && 0 <= i < |init[f]| && 0 <= j < |init[f][i]| && init[f][i][j] == x;
          assert g[f][i][j] == x;
        } else {
          var i, j :| 0 <= i < |g[|g| - 1]| && 0 <= j < |g[|g| - 1][i]| && g[|g| - 1][i][j] == x;
          assert g[|g| - 1][i][j] == x;
        }
      }
      if exists f, i, j :: 0 <= f < |g| && 0 <= i < |g[f]| && 0 <= j < |g[f][i]| && g[f][i][j] == x {
        var f, i, j :| 0 <= f < |g| && 0 <= i < |g[f]| && 0 <= j < |g[f][i]| && g[f][i][j] == x;
        if f < |init| {
          assert init[f][i][j] == x;
        }
      }
    }
  }

  lemma {:induction false} ConcatMembers<T>(ss: seq<seq<T>>, x: T)
    ensures x in Concat(ss) <==> exists i, j :: 0 <= i < |ss| && 0 <= j < |ss[i]| && ss[i][j] == x
    decreases |ss|
  {
    if |ss| > 0 {
      var init := ss[..|ss| - 1];
      ConcatMembers(init, x);
      if x in Concat(ss) {
        if x in Concat(init) {
          var i, j :| 0 <= i < |init| && 0 <= j < |init[i]| && init[i][j] == x;
          assert ss[i][j] == x;
        } else {
          var j :| 0 <= j < |ss[|ss| - 1]| && ss[|ss| - 1][j] == x;
          assert ss[|ss| - 1][j] == x;
        }
      }
      if exists i, j :: 0 <= i < |ss| && 0 <= j < |ss[i]| && ss[i][j] == x {
        var i, j :| 0 <= i < |ss| && 0 <= j < |ss[i]| && ss[i][j] == x;
        if i < |init| {
          assert init[i][j] == x;
        }
      }
    }
  }

  /** `z` pairs `x` and `y` position by position. */
  ghost predicate Paired<T, U>(z: seq<(T, U)>, x: seq<T>, y: seq<U>) {
    |z| == |x| && |z| == |y| && forall k | 0 <= k < |z| :: z[k] == (x[k], y[k])
  }

  /** Two stacks of one shape, paired element by element. */
  function Zip3<T, U>(a: Grid<T>, b: Grid<U>): (r: Grid<(T, U)>)
    requires SameShape(a, b)
    ensures |r| == |a| && forall f | 0 <= f < |a| :: |r[f]| == |a[f]| && forall i | 0 <= i < |a[f]| :: Paired(r[f][i], a[f][i], b[f][i])
  {
    seq(|a|, f requires 0 <= f < |a| =>
      seq(|a[f]|, i requires 0 <= i < |a[f]| =>
        seq(|a[f][i]|, j requires 0 <= j < |a[f][i]| => (a[f][i][j], b[f][i][j]))))
  }

  /** Concatenation keeps a pairing: paired pieces concatenate to paired sequences. */
  lemma {:induction false} ConcatPaired<T, U>(zs: seq<seq<(T, U)>>, xs: seq<seq<T>>, ys: seq<seq<U>>)
    requires |zs| == |xs| && |zs| == |ys|
    requires forall k | 0 <= k < |zs| :: Paired(zs[k], xs[k], ys[k])
    ensures Paired(Concat(zs), Concat(xs), Concat(ys))
    decreases |zs|
  {
    if |zs| > 0 {
      var n := |zs| - 1;
      ConcatPaired(zs[..n], xs[..n], ys[..n]);
      var z0, x0, y0 := Concat(zs[..n]), Concat(xs[..n]), Concat(ys[..n]);
      forall k | 0 <= k < |z0| + |zs[n]|
        ensures (z0 + zs[n])[k] == ((x0 + xs[n])[k], (y0 + ys[n])[k])
      {
        if k >= |z0| {
          assert Paired(zs[n], xs[n], ys[n]);
        }
      }
    }
  }

  /** Row-major flattening keeps a pairing: pairing two stacks and then flattening pairs their flattenings. */
  lemma {:induction false} Flatten3Paired<T, U>(z: Grid<(T, U)>, a: Grid<T>, b: Grid<U>)
    requires |z| == |a| && |z| == |b|
    requires forall f | 0 <= f < |z| :: |z[f]| == |a[f]| && |z[f]| == |b[f]|
    requires forall f, i | 0 <= f < |z| && 0 <= i < |z[f]| :: Paired(z[f][i], a[f][i], b[f][i])
    ensures Paired(Flatten3(z), Flatten3(a), Flatten3(b))
    decreases |z|
  {
    if |z| > 0 {
      var n := |z| - 1;
      Flatten3Paired(z[..n], a[..n], b[..n]);
      ConcatPaired(z[n], a[n], b[n]);
      var z0, a0, b0 := Flatten3(z[..n]), Flatten3(a[..n]), Flatten3(b[..n]);
      var zl, al, bl := Concat(z[n]), Concat(a[n]), Concat(b[n]);
      forall k | 0 <= k < |z0| + |zl|
        ensures (z0 + zl)[k] == ((a0 + al)[k], (b0 + bl)[k])
      {
      }
    }
  }

  /** A pair occurs in a pairing exactly when its halves sit at one position. */
  lemma PairedMembers<T, U>(z: seq<(T, U)>, x: seq<T>, y: seq<U>, p: (T, U))
    requires Paired(z, x, y)
    ensures p in z <==> exists k :: 0 <= k < |z| && x[k] == p.0 && y[k] == p.1
  {
    if exists k :: 0 <= k < |z| && x[k] == p.0 && y[k] == p.1 {
      var k :| 0 <= k < |z| && x[k] == p.0 && y[k] == p.1;
      assert z[k] == p;
    }
  }

  /** A pair occurs in the flattened pairing of two stacks exactly when its halves sit at one index `(f, i, j)`. */
  lemma Flatten3ZipMembers<T, U>(a: Grid<T>, b: Grid<U>, p: (T, U))
    requires SameShape(a, b)
    ensures p in Flatten3(Zip3(a, b)) <==>
      exists f, i, j :: 0 <= f < |a| && 0 <= i < |a[f]| && 0 <= j < |a[f][i]| && a[f][i][j] == p.0 && b[f][i][j] == p.1
  {
    var z := Zip3(a, b);
    Flatten3Members(z, p);
    if p in Flatten3(z) {
      var f, i, j :| 0 <= f < |z| && 0 <= i < |z[f]| && 0 <= j < |z[f][i]| && z[f][i][j] == p;
      assert Paired(z[f][i], a[f][i], b[f][i]);
    }
    if exists f, i, j :: 0 <= f < |a| && 0 <= i < |a[f]| && 0 <= j < |a[f][i]| && a[f][i][j] == p.0 && b[f][i][j] == p.1 {
      var f, i, j :| 0 <= f < |a| && 0 <= i < |a[f]| && 0 <= j < |a[f][i]| && a[f][i][j] == p.0 && b[f][i][j] == p.1;
      assert Paired(z[f][i], a[f][i], b[f][i]);
      assert z[f][i][j] == p;
    }
  }

  /** Two grids of one shape that agree at every index are equal. */
  lemma GridExtensional<T>(a: Grid<T>, b: Grid<T>, d0: nat, d1: nat, d2: nat)
    requires Shaped(a, d0, d1, d2) && Shaped(b, d0, d1, d2)
    requires forall i, j, k | 0 <= i < d0 && 0 <= j < d1 && 0 <= k < d2 :: a[i][j][k] == b[i][j][k]
    ensures a == b
  {
    forall i | 0 <= i < d0
      ensures a[i] == b[i]
    {
      forall j | 0 <= j < d1
        ensures a[i][j] == b[i][j]
      {
        assert forall k | 0 <= k < d2 :: a[i][j][k] == b[i][j][k];
      }
    }
  }

  /** Stacking stacks whose frames are all `h × w` gives such a stack. */
  lemma {:induction false} ConcatFramesShaped<T>(gs: seq<Grid<T>>, h: nat, w: nat)
    requires forall k | 0 <= k < |gs| :: FramesShaped(gs[k], h, w)
    ensures FramesShaped(Concat(gs), h, w)
    decreases |gs|
  {
    if |gs| > 0 {
      var init := gs[..|gs| - 1];
      ConcatFramesShaped(init, h, w);
      StackFramesShaped(Concat(init), gs[|gs| - 1], h, w);
    }
  }

  lemma StackFramesShaped<T>(a: Grid<T>, b: Grid<T>, h: nat, w: nat)
    requires FramesShaped(a, h, w) && FramesShaped(b, h, w)
    ensures FramesShaped(a + b, h, w)
  {
    forall f | 0 <= f < |a + b|
      ensures |(a + b)[f]| == h && forall i | 0 <= i < h :: |(a + b)[f][i]| == w
    {
      if f < |a| { assert (a + b)[f] == a[f]; } else { assert (a + b)[f] == b[f - |a|]; }
    }
  }

  /** Every piece of `ss` has length `w`. */
  predicate Uniform<T>(ss: seq<seq<T>>, w: nat) {
    forall x | 0 <= x < |ss| :: |ss[x]| == w
  }

  /** Concatenating `n` pieces of length `w` gives `n*w` elements. */
  lemma {:induction false} ConcatUniformLength<T>(ss: seq<seq<T>>, w: nat)
    requires Uniform(ss, w)
    ensures |Concat(ss)| == |ss| * w
    decreases |ss|
  {
    if |ss| > 0 {
      ConcatUniformLength(ss[..|ss| - 1], w);
    }
  }

  /** Concatenating pieces of length `w` puts element `y` of piece `x` at position `x*w + y`. */
  lemma {:induction false} ConcatUniformAt<T>(ss: seq<seq<T>>, w: nat, x: nat, y: nat)
    requires Uniform(ss, w) && x < |ss| && y < w
    ensures x * w + y < |Concat(ss)| && Concat(ss)[x * w + y] == ss[x][y]
    decreases |ss|
  {
    var n := |ss| - 1;
    var init := ss[..n];
    ConcatUniformLength(init, w);
    if x < n {
      BlockOffset(x, y, n, w);
      ConcatUniformAt(init, w, x, y);
      assert init[x] == ss[x];
    }
  }

  /** `v` cut into `n` consecutive pieces of length `w`. */
  function Chunks<T>(v: seq<T>, w: nat, n: nat): (r: seq<seq<T>>)
    requires |v| == n * w
    ensures |r| == n && Uniform(r, w)
  {
    seq(n, x requires 0 <= x < n => ChunkAt(v, w, n, x))
  }

  function ChunkAt<T>(v: seq<T>, w: nat, n: nat, x: nat): (c: seq<T>)
    requires |v| == n * w && x < n
    ensures |c| == w
  {
    MulLe(w, x + 1, n);
    v[x * w .. x * w + w]
  }

  /** Element `y` of piece `x` is element `x*w + y` of the whole. */
  lemma ChunkElement<T>(v: seq<T>, w: nat, n: nat, x: nat, y: nat)
    requires |v| == n * w && x < n && y < w
    ensures x * w + y < |v| && Chunks(v, w, n)[x][y] == v[x * w + y]
  {
    BlockOffset(x, y, n, w);
    MulLe(w, x + 1, n);
    var lo := x * w;
    assert Chunks(v, w, n)[x] == v[lo .. lo + w];
    assert v[lo .. lo + w][y] == v[lo + y];
  }

  /** Gluing the pieces back together gives the sequence that was cut. */
  lemma {:induction false} ConcatChunks<T>(v: seq<T>, w: nat, n: nat)
    requires |v| == n * w
    ensures Concat(Chunks(v, w, n)) == v
    decreases n
  {
    if n > 0 {
      var m := (n - 1) * w;
      assert m + w == |v|;
      var front := v[..m];
      ConcatChunks(front, w, n - 1);
      var cs := Chunks(v, w, n);
      var pre, fc := cs[..n - 1], Chunks(front, w, n - 1);
      assert pre == fc by {
        forall x | 0 <= x < |pre|
          ensures pre[x] == fc[x]
        {
          PieceOfFront(v, front, w, n, x);
        }
      }
      assert cs[n - 1] == v[m..] by {
        forall y | 0 <= y < w
          ensures cs[n - 1][y] == v[m..][y]
        {
          ChunkElement(v, w, n, n - 1, y);
        }
      }
      assert v == front + v[m..];
    }
  }

  lemma PieceOfFront<T>(v: seq<T>, front: seq<T>, w: nat, n: nat, x: nat)
    requires n > 0 && |v| == n * w && front == v[..(n - 1) * w] && x < n - 1
    ensures |front| == (n - 1) * w
    ensures Chunks(v, w, n)[x] == Chunks(front, w, n - 1)[x]
  {
    var a, b := Chunks(v, w, n)[x], Chunks(front, w, n - 1)[x];
    forall y | 0 <= y < w
      ensures a[y] == b[y]
    {
      ChunkElement(v, w, n, x, y);
      ChunkElement(front, w, n - 1, x, y);
    }
  }
}

=== FILE: layout.dfy ===
/**
 * Index arithmetic for three-dimensional arrays stored in one flat sequence.
 *
 * `Linear3(a, b, c, da, db)` is the flat position of the element whose
 * fastest-varying index is `a` (extent `da`), middle index `b` (extent `db`)
 * and slowest index `c`. Column-major (first axis fastest) storage of
 * element (i, j, k) is `Linear3(i, j, k, d0, d1)`; row-major storage of
 * element (f, i, j) is `Linear3(j, i, f, width, height)`.
 */
module Layout {

  function Linear3(a: nat, b: nat, c: nat, da: nat, db: nat): nat {
    a + da * (b + db * c)
  }

  /** Product of a shape's extents: the number of elements of an array of that shape. */
  function Product(shape: seq<nat>): nat {
    if |shape| == 0 then 1 else shape[0] * Product(shape[1..])
  }

  lemma Product3(shape: seq<nat>)
    requires |shape| == 3
    ensures Product(shape) == shape[0] * shape[1] * shape[2]
  {
    assert shape[1..][1..][1..] == [];
    assert Product(shape[2..]) == shape[2] by { assert shape[1..][1..] == shape[2..]; }
    assert Product(shape[1..]) == shape[1] * shape[2];
  }

  /** Every in-range index triple has a flat position inside the array. */
  lemma LinearBound(a: nat, b: nat, c: nat, da: nat, db: nat, dc: nat)
    requires a < da && b < db && c < dc
    ensures Linear3(a, b, c, da, db) < da * db * dc
    ensures Linear3(a, b, c, da, db) < dc * db * da
  {
    assert b + db * c <= db - 1 + db * c;
    assert db - 1 + db * c == db * (c + 1) - 1;
    assert db * (c + 1) <= db * dc by { MulLe(db, c + 1, dc); }
    assert b + db * c < db * dc;
    var m := b + db * c;
    assert a + da * m <= da - 1 + da * m;
    assert da - 1 + da * m == da * (m + 1) - 1;
    assert da * (m + 1) <= da * (db * dc) by { MulLe(da, m + 1, db * dc); }
    assert da * (db * dc) == da * db * dc == dc * db * da;
  }

  lemma ProductOrder(a: nat, b: nat, c: nat)
    ensures c * (b * a) == a * b * c
  {
  }

  lemma MulNat(x: nat, y: nat)
    ensures x * y >= 0
  {
  }

  lemma MulLe(x: nat, y: nat, z: nat)
    requires y <= z
    ensures x * y <= x * z
  {
  }

  /** A column-major position counts whole planes of `da*db`, then whole columns of `da`, then the offset. */
  lemma LinearAsBlocks(a: nat, b: nat, c: nat, da: nat, db: nat)
    ensures Linear3(a, b, c, da, db) == c * (db * da) + (b * da + a)
  {
  }

  /** Offset `p` inside block `i` of size `b` stays inside the `n` blocks. */
  lemma BlockOffset(i: nat, p: nat, n: nat, b: nat)
    requires i < n && p < b
    ensures i * b + p < n * b
  {
    MulLe(b, i + 1, n);
    assert (i + 1) * b == i * b + b;
  }

  /** Whole blocks of size `b` never exceed the extent they were counted from. */
  lemma WholeBlocks(extent: nat, b: nat)
    requires b > 0
    ensures (extent / b) * b <= extent
  {
  }
}

=== FILE: loader.dfy ===
/**
 * `load_convert`: one scan's detector frames divided by the normalised
 * monitor, its six motor-angle channels with the positioner fallback, and
 * the per-pixel momentum-transfer arrays produced by the geometry transform.
 *
 * Reading the spec file and the TIFF images is left out: the scan record and
 * the raw images arrive as values, and the transform (`Ang2Q.area`) is a
 * function parameter.
 */
module FrameLoader {
  import opened Wrappers
  import opened NanStats
  import opened Grids

  /** Detector rows and columns (`Nch1`, `Nch2`). */
  const Rows: nat := 516
  const Cols: nat := 516

  type Matrix = seq<seq<real>>

  /** One point of reciprocal space: the three components the transform returns for a pixel; a NaN component (from a NaN angle reading, say) is `None`. */
  datatype QVec = QVec(x: Value, y: Value, z: Value) {
    /** No component is NaN. */
    predicate Present() { x.Some? && y.Some? && z.Some? }
  }

  /** The motor angles of one frame, in the order the transform takes them: four sample circles, then two detector circles. A NaN reading is `None`. */
  datatype Angles = Angles(mu: Value, eta: Value, chi: Value, phi: Value, nu: Value, delta: Value)

  /** Instrument geometry handed to the transform; fixed for the diffractometer. */
  datatype Instrument = Instrument(
    sampleAxes: seq<string>, detectorAxes: seq<string>, beam: seq<int>,
    inPlaneReference: seq<int>, surfaceNormal: seq<int>, detectorDirections: seq<string>,
    centerChannel1: nat, centerChannel2: nat, channels1: nat, channels2: nat,
    pixelWidth1: real, pixelWidth2: real, distance: real)

  const Diffractometer := Instrument(
    ["x+", "z-", "y+", "z-"], ["x+", "z-"], [0, 1, 0],
    [0, 1, 0], [0, 0, 1], ["x-", "z-"],
    188, 146, Rows, Cols,
    28.38 / 516.0, 28.38 / 516.0, 770.0)

  /**
   * The geometry transform for one pixel: instrument, the frame's angles,
   * the orientation matrix, the energy in eV, and the pixel's row and column
   * give its momentum-transfer vector.
   */
  type Transform = (Instrument, Angles, Matrix, real, nat, nat) -> QVec

  /** What the spec file holds for one scan: measured channels (a NaN reading is `None`), static positioners, orientation matrix and energy in keV. */
  datatype ScanRecord = ScanRecord(
    measurement: map<string, seq<Value>>,
    positioners: map<string, real>,
    orientation: Matrix,
    energyKeV: real)

  /** A scan record together with the images found for it, keyed by frame index. */
  datatype ScanInput = ScanInput(record: ScanRecord, images: map<nat, seq<seq<real>>>)

  datatype LoadError =
    | MissingChannel(name: string)   // neither a measured channel nor a positioner of that name
    | ImagesMismatch                 // a frame's image is absent, has the wrong size, or has no monitor value
    | AngleLengthMismatch            // an angle channel's length differs from the frame count

  /** Detector intensities and momentum-transfer vectors of a stack of frames, both `frames × Rows × Cols`. */
  datatype ScanData = ScanData(imgs: Grid<Value>, q: Grid<QVec>) {
    predicate Valid() {
      FramesShaped(imgs, Rows, Cols) && Shaped(q, |imgs|, Rows, Cols)
    }
  }

  /** Well-formed scan data pairs every pixel intensity with its momentum transfer. */
  lemma ValidSameShape(d: ScanData)
    requires d.Valid()
    ensures SameShape(d.imgs, d.q)
  {
  }

  // ---------------------------------------------------------------------
  // Monitor normalisation

  /**
   * `I0 /= np.nanmean(I0)`: each present reading divided by the mean of the
   * present readings. A missing reading stays missing. When every reading
   * is missing, or the present ones average to zero, numpy produces only
   * NaN and infinities, and every entry is missing.
   */
  function NormaliseMonitor(m: seq<Value>): (r: seq<Value>)
    ensures |r| == |m|
    ensures NanMean(m).Some? && NanMean(m).value != 0.0 ==> forall i | 0 <= i < |m| ::
      && (r[i].Some? <==> m[i].Some?)
      && (r[i].Some? ==> r[i].value * NanMean(m).value == m[i].value)
    ensures NanMean(m).None? || NanMean(m).value == 0.0 ==> forall i | 0 <= i < |m| :: r[i] == None
  {
    var mean := NanMean(m);
    seq(|m|, i requires 0 <= i < |m| =>
      if mean.None? || mean.value == 0.0 || m[i].None? then None else Some(m[i].value / mean.value))
  }

  /** Dividing every present element by `d` keeps the count and divides the sum by `d`. */
  lemma {:induction false} ScaledPresent(s: seq<Value>, t: seq<Value>, d: real)
    requires d != 0.0 && |s| == |t|
    requires forall i | 0 <= i < |s| :: (t[i].Some? <==> s[i].Some?) && (t[i].Some? ==> t[i].value == s[i].value / d)
    ensures PresentCount(t) == PresentCount(s)
    ensures PresentSum(t) == PresentSum(s) / d
    decreases |s|
  {
    if |s| > 0 {
      var n := |s| - 1;
      var s0, t0 := s[..n], t[..n];
      assert forall i | 0 <= i < n :: s0[i] == s[i] && t0[i] == t[i];
      ScaledPresent(s0, t0, d);
      if s[n].Some? {
        DivideSum(PresentSum(s0), s[n].value, d);
      }
    }
  }

  lemma DivideSum(a: real, b: real, d: real)
    requires d != 0.0
    ensures (b + a) / d == b / d + a / d
  {
  }

  /**
   * After normalisation the present monitor readings average to exactly
   * one, and exactly the readings that were present still are.
   */
  lemma NormalisedMonitorAveragesOne(m: seq<Value>)
    requires NanMean(m).Some? && NanMean(m).value != 0.0
    ensures PresentCount(NormaliseMonitor(m)) == PresentCount(m)
    ensures NanMean(NormaliseMonitor(m)) == Some(1.0)
  {
    var mean := NanMean(m).value;
    var r := NormaliseMonitor(m);
    ScaledPresent(m, r, mean);
    MeanQuotient(PresentSum(m), PresentCount(m) as real);
  }

  lemma MeanQuotient(total: real, n: real)
    requires n > 0.0 && total / n != 0.0
    ensures (total / (total / n)) / n == 1.0
  {
    var mean := total / n;
    assert mean * n == total;
    assert total != 0.0;
    assert total / mean == n;
  }

  // ---------------------------------------------------------------------
  // Frame normalisation

  /** A pixel divided by its frame's normalised monitor value; a zero or missing divisor gives a missing pixel. */
  function DivideBy(x: real, d: Value): Value {
    if d.Some? && d.value != 0.0 then Some(x / d.value) else None
  }

  /**
   * An image numpy can assign into a `Rows × Cols` frame: a rectangle whose
   * height is `Rows` or 1 and whose width is `Cols` or 1. An extent of 1 is
   * broadcast across the frame.
   */
  predicate FrameShaped(img: seq<seq<real>>) {
    && (|img| == Rows || |img| == 1)
    && (|img[0]| == Cols || |img[0]| == 1)
    && forall r | 0 <= r < |img| :: |img[r]| == |img[0]|
  }

  /** Pixel `(i, j)` of the frame an image is assigned into: a single row or column is repeated. */
  function Broadcast(img: seq<seq<real>>, i: nat, j: nat): real
    requires FrameShaped(img) && i < Rows && j < Cols
  {
    img[if |img| == 1 then 0 else i][if |img[0]| == 1 then 0 else j]
  }

  /**
   * A detector-sized image is assigned unchanged; a single row is repeated
   * down the frame, and a single column across it.
   */
  lemma BroadcastPixels(img: seq<seq<real>>, i: nat, j: nat)
    requires FrameShaped(img) && i < Rows && j < Cols
    ensures |img| == Rows && |img[0]| == Cols ==> Broadcast(img, i, j) == img[i][j]
    ensures |img| == 1 ==> Broadcast(img, i, j) == Broadcast(img, 0, j)
    ensures |img[0]| == 1 ==> Broadcast(img, i, j) == Broadcast(img, i, 0)
  {
  }

  /** Every frame `0 .. length-1` has an image numpy can assign into a detector frame, and a monitor value. */
  predicate ImagesComplete(images: map<nat, seq<seq<real>>>, monitor: seq<Value>, length: nat) {
    length <= |monitor| && forall f: nat | f < length :: f in images && FrameShaped(images[f])
  }

  /** The image loop of `load_convert`: frame `f` is image `f` divided by the monitor value of frame `f`. */
  function LoadFrames(images: map<nat, seq<seq<real>>>, monitor: seq<Value>, length: nat): (r: Result<Grid<Value>, LoadError>)
    ensures r.Success? <==> ImagesComplete(images, monitor, length)
    ensures r.Success? ==> Shaped(r.value, length, Rows, Cols)
    ensures r.Success? ==> forall f, i, j | 0 <= f < length && 0 <= i < Rows && 0 <= j < Cols ::
      r.value[f][i][j] == DivideBy(Broadcast(images[f], i, j), monitor[f])
  {
    if !ImagesComplete(images, monitor, length) then Failure(ImagesMismatch)
    else
      Success(seq(length, f requires 0 <= f < length =>
        seq(Rows, i requires 0 <= i < Rows =>
          seq(Cols, j requires 0 <= j < Cols => DivideBy(Broadcast(images[f], i, j), monitor[f])))))
  }

  /** Each frame is divided exactly once: multiplying a present pixel back by its monitor value restores the raw count. */
  lemma FramesRestore(images: map<nat, seq<seq<real>>>, monitor: seq<Value>, length: nat, f: nat, i: nat, j: nat)
    requires LoadFrames(images, monitor, length).Success?
    requires f < length && i < Rows && j < Cols
    requires monitor[f].Some? && monitor[f].value != 0.0
    ensures LoadFrames(images, monitor, length).value[f][i][j].Some?
    ensures LoadFrames(images, monitor, length).value[f][i][j].value * monitor[f].value == Broadcast(images[f], i, j)
  {
  }

  // ---------------------------------------------------------------------
  // Angle channels

  /** The measured channel when the scan has one, else the positioner value repeated for every frame. */
  function AngleChannel(rec: ScanRecord, name: string, length: nat): (r: Result<seq<Value>, LoadError>)
    ensures r.Success? <==> name in rec.measurement || name in rec.positioners
    ensures name in rec.measurement ==> r == Success(rec.measurement[name])
    ensures name !in rec.measurement && name in rec.positioners ==>
      r.Success? && |r.value| == length && forall i | 0 <= i < length :: r.value[i] == Some(rec.positioners[name])
  {
    if name in rec.measurement then Success(rec.measurement[name])
    else if name in rec.positioners then Success(seq(length, i => Some(rec.positioners[name])))
    else Failure(MissingChannel(name))
  }

  /** All measured channels of a scan record have one length, as the spec file writes them. */
  predicate ChannelsAligned(rec: ScanRecord, length: nat) {
    forall name | name in rec.measurement :: |rec.measurement[name]| == length
  }

  /** In a record whose measured channels all have the scan's length, every angle channel found has that length. */
  lemma AngleChannelLength(rec: ScanRecord, name: string, length: nat)
    requires ChannelsAligned(rec, length)
    requires AngleChannel(rec, name, length).Success?
    ensures |AngleChannel(rec, name, length).value| == length
  {
  }

  /** The six angle channels in the order `load_convert` looks them up. */
  const LookupOrder: seq<string> := ["Delta", "Eta", "Chi", "Phi", "Nu", "Mu"]

  /** The angle `name` at frame `f`: the measured value when the channel was scanned, else the positioner reading. */
  function ChannelValue(rec: ScanRecord, name: string, f: nat): Value
    requires name in rec.measurement ==> f < |rec.measurement[name]|
    requires name !in rec.measurement ==> name in rec.positioners
  {
    if name in rec.measurement then rec.measurement[name][f] else Some(rec.positioners[name])
  }

  /** Every angle channel exists, measured or as a positioner, and every measured one has one value per frame. */
  predicate AnglesAvailable(rec: ScanRecord, length: nat) {
    forall name | name in LookupOrder ::
      && (name in rec.measurement || name in rec.positioners)
      && (name in rec.measurement ==> |rec.measurement[name]| == length)
  }

  /** The angles of frame `f`, arranged for the transform as (mu, eta, chi, phi, nu, delta). */
  function FrameAngles(rec: ScanRecord, length: nat, f: nat): Angles
    requires AnglesAvailable(rec, length) && f < length
  {
    assert "Mu" in LookupOrder && "Eta" in LookupOrder && "Chi" in LookupOrder;
    assert "Phi" in LookupOrder && "Nu" in LookupOrder && "Delta" in LookupOrder;
    Angles(ChannelValue(rec, "Mu", f), ChannelValue(rec, "Eta", f), ChannelValue(rec, "Chi", f),
           ChannelValue(rec, "Phi", f), ChannelValue(rec, "Nu", f), ChannelValue(rec, "Delta", f))
  }

  /** The frame count: the length of the `Epoch` channel. */
  function FrameCount(rec: ScanRecord): nat
    requires "Epoch" in rec.measurement
  {
    |rec.measurement["Epoch"]|
  }

  /** Everything `load_convert` needs is present and consistent. */
  predicate Loadable(input: ScanInput) {
    var rec := input.record;
    && "Epoch" in rec.measurement
    && "Ion_Ch_4" in rec.measurement
    && ImagesComplete(input.images, NormaliseMonitor(rec.measurement["Ion_Ch_4"]), FrameCount(rec))
    && AnglesAvailable(rec, FrameCount(rec))
  }

  /** The six angle channels in lookup order; the first one found in neither place aborts the load. */
  function AngleChannels(rec: ScanRecord, length: nat): (r: Result<seq<seq<Value>>, LoadError>)
    ensures r.Success? <==> forall name | name in LookupOrder :: name in rec.measurement || name in rec.positioners
    ensures r.Success? ==> |r.value| == 6 && forall k | 0 <= k < 6 ::
      AngleChannel(rec, LookupOrder[k], length).Success? && r.value[k] == AngleChannel(rec, LookupOrder[k], length).value
  {
    var delta :- AngleChannel(rec, "Delta", length);
    var eta :- AngleChannel(rec, "Eta", length);
    var chi :- AngleChannel(rec, "Chi", length);
    var phi :- AngleChannel(rec, "Phi", length);
    var nu :- AngleChannel(rec, "Nu", length);
    var mu :- AngleChannel(rec, "Mu", length);
    Success([delta, eta, chi, phi, nu, mu])
  }

  /** `Ang2Q.area(mu, eta, chi, phi, nu, delta, UB=UB)`: the transform applied pixel by pixel to each frame's angles. */
  function PixelQ(transform: Transform, orientation: Matrix, energy: real, channels: seq<seq<Value>>, length: nat): (q: Grid<QVec>)
    requires |channels| == 6 && forall k | 0 <= k < 6 :: |channels[k]| == length
    ensures Shaped(q, length, Rows, Cols)
  {
    var delta, eta, chi, phi, nu, mu := channels[0], channels[1], channels[2], channels[3], channels[4], channels[5];
    seq(length, f requires 0 <= f < length =>
      seq(Rows, i requires 0 <= i < Rows =>
        seq(Cols, j requires 0 <= j < Cols =>
          transform(Diffractometer, Angles(mu[f], eta[f], chi[f], phi[f], nu[f], delta[f]), orientation, energy, i, j))))
  }

  /**
   * `load_convert(file_name, scan_num)` on an already-read scan: monitor-
   * normalised frames and the per-pixel momentum transfer of every frame.
   */
  function LoadConvert(input: ScanInput, transform: Transform): (r: Result<ScanData, LoadError>)
  {
    var rec := input.record;
    if "Epoch" !in rec.measurement then Failure(MissingChannel("Epoch"))
    else if "Ion_Ch_4" !in rec.measurement then Failure(MissingChannel("Ion_Ch_4"))
    else
      var length := |rec.measurement["Epoch"]|;
      var monitor := NormaliseMonitor(rec.measurement["Ion_Ch_4"]);
      var imgs :- LoadFrames(input.images, monitor, length);
      var channels :- AngleChannels(rec, length);
      if exists k | 0 <= k < 6 :: |channels[k]| != length then Failure(AngleLengthMismatch)
      else Success(ScanData(imgs, PixelQ(transform, rec.orientation, rec.energyKeV * 1000.0, channels, length)))
  }

  /**
   * `load_convert` succeeds exactly when the scan is loadable. Its frames are
   * the images divided by the normalised monitor, and pixel `(i, j)` of frame
   * `f` gets the transform of the diffractometer, that frame's angles
   * (measured, or the positioner when not scanned) in the order mu, eta, chi,
   * phi, nu, delta, the scan's orientation matrix and its energy in eV.
   */
  lemma LoadConvertSpec(input: ScanInput, transform: Transform)
    ensures LoadConvert(input, transform).Success? <==> Loadable(input)
    ensures var r := LoadConvert(input, transform);
      r.Success? ==> (
        && r.value.Valid() && |r.value.imgs| == FrameCount(input.record)
        && (forall f, i, j | 0 <= f < |r.value.imgs| && 0 <= i < Rows && 0 <= j < Cols ::
              r.value.imgs[f][i][j] == DivideBy(Broadcast(input.images[f], i, j), NormaliseMonitor(input.record.measurement["Ion_Ch_4"])[f]))
        && (forall f, i, j | 0 <= f < |r.value.imgs| && 0 <= i < Rows && 0 <= j < Cols ::
              r.value.q[f][i][j] == transform(Diffractometer, FrameAngles(input.record, |r.value.imgs|, f),
                                              input.record.orientation, input.record.energyKeV * 1000.0, i, j)))
  {
    LoadConvertSucceeds(input, transform);
    if LoadConvert(input, transform).Success? {
      LoadedImages(input, transform);
      LoadedMomentum(input, transform);
    }
  }

  /** `load_convert` succeeds exactly when the scan is loadable, and then gives well-formed data with one frame per `Epoch` reading. */
  lemma LoadConvertSucceeds(input: ScanInput, transform: Transform)
    ensures LoadConvert(input, transform).Success? <==> Loadable(input)
    ensures LoadConvert(input, transform).Success? ==>
      LoadConvert(input, transform).value.Valid() && |LoadConvert(input, transform).value.imgs| == FrameCount(input.record)
  {
    var rec := input.record;
    var r := LoadConvert(input, transform);
    if "Epoch" in rec.measurement && "Ion_Ch_4" in rec.measurement {
      var length := FrameCount(rec);
      var monitor := NormaliseMonitor(rec.measurement["Ion_Ch_4"]);
      var channels := AngleChannels(rec, length);
      if ImagesComplete(input.images, monitor, length) && channels.Success? {
        var ch := channels.value;
        assert forall k | 0 <= k < 6 :: LookupOrder[k] in LookupOrder;
        if AnglesAvailable(rec, length) {
          forall k | 0 <= k < 6
            ensures |ch[k]| == length
          {
            assert LookupOrder[k] in LookupOrder;
          }
          assert r.Success?;
        } else {
          var name :| name in LookupOrder && !((name in rec.measurement || name in rec.positioners)
            && (name in rec.measurement ==> |rec.measurement[name]| == length));
          var k :| 0 <= k < 6 && LookupOrder[k] == name;
          assert |ch[k]| != length;
          assert r.Failure?;
        }
      } else {
        assert r.Failure?;
      }
    } else {
      assert r.Failure?;
    }
  }

  /** A loaded scan's momentum transfers are the transform of each frame's angles, in the order mu, eta, chi, phi, nu, delta. */
  lemma LoadedMomentum(input: ScanInput, transform: Transform)
    requires LoadConvert(input, transform).Success?
    ensures Loadable(input) && |LoadConvert(input, transform).value.imgs| == FrameCount(input.record)
    ensures var r := LoadConvert(input, transform);
      forall f, i, j | 0 <= f < |r.value.imgs| && 0 <= i < Rows && 0 <= j < Cols ::
        r.value.q[f][i][j] == transform(Diffractometer, FrameAngles(input.record, |r.value.imgs|, f),
                                        input.record.orientation, input.record.energyKeV * 1000.0, i, j)
  {
    LoadConvertSucceeds(input, transform);
    var rec := input.record;
    var length := FrameCount(rec);
    var ch := AngleChannels(rec, length).value;
    ChannelsMatch(rec, length, ch);
  }

  /** A loaded scan's frames are its images divided by the normalised monitor, frame by frame. */
  lemma LoadedImages(input: ScanInput, transform: Transform)
    requires LoadConvert(input, transform).Success?
    ensures "Ion_Ch_4" in input.record.measurement
    ensures var imgs := LoadConvert(input, transform).value.imgs;
      var monitor := NormaliseMonitor(input.record.measurement["Ion_Ch_4"]);
      forall f, i, j | 0 <= f < |imgs| && 0 <= i < Rows && 0 <= j < Cols ::
        f < |monitor| && f in input.images && FrameShaped(input.images[f]) &&
        imgs[f][i][j] == DivideBy(Broadcast(input.images[f], i, j), monitor[f])
  {
    var rec := input.record;
    var length := |rec.measurement["Epoch"]|;
    var monitor := NormaliseMonitor(rec.measurement["Ion_Ch_4"]);
    var frames := LoadFrames(input.images, monitor, length);
    assert frames.Success?;
    assert LoadConvert(input, transform).value.imgs == frames.value;
  }

  /** Channel `k` at frame `f` is the angle `LookupOrder[k]` at that frame, measured or positioner. */
  lemma ChannelsMatch(rec: ScanRecord, length: nat, ch: seq<seq<Value>>)
    requires AnglesAvailable(rec, length)
    requires |ch| == 6 && forall k | 0 <= k < 6 ::
      AngleChannel(rec, LookupOrder[k], length).Success? && ch[k] == AngleChannel(rec, LookupOrder[k], length).value
    ensures forall k | 0 <= k < 6 :: |ch[k]| == length
    ensures forall f | 0 <= f < length ::
      FrameAngles(rec, length, f) == Angles(ch[5][f], ch[1][f], ch[2][f], ch[3][f], ch[4][f], ch[0][f])
  {
    forall k | 0 <= k < 6
      ensures |ch[k]| == length
      ensures forall f | 0 <= f < length :: ch[k][f] == ChannelValue(rec, LookupOrder[k], f)
    {
      assert LookupOrder[k] in LookupOrder;
    }
  }

  /** The worked example: monitor readings 2, 4, 6, 8 normalise to 0.4, 0.8, 1.2, 1.6, and a pixel of 10 in frame 0 becomes 25. */
  lemma MonitorExample()
    ensures NormaliseMonitor([Some(2.0), Some(4.0), Some(6.0), Some(8.0)]) == [Some(0.4), Some(0.8), Some(1.2), Some(1.6)]
    ensures DivideBy(10.0, NormaliseMonitor([Some(2.0), Some(4.0), Some(6.0), Some(8.0)])[0]) == Some(25.0)
  {
    var m: seq<Value> := [Some(2.0), Some(4.0), Some(6.0), Some(8.0)];
    var m1, m2, m3: seq<Value> := [Some(2.0)], [Some(2.0), Some(4.0)], [Some(2.0), Some(4.0), Some(6.0)];
    assert m1[..0] == [] && m2[..1] == m1 && m3[..2] == m2 && m[..3] == m3;
    assert PresentSum(m1) == 2.0 && PresentCount(m1) == 1;
    assert PresentSum(m2) == 6.0 && PresentCount(m2) == 2;
    assert PresentSum(m3) == 12.0 && PresentCount(m3) == 3;
    assert PresentSum(m) == 20.0 && PresentCount(m) == 4;
    assert NanMean(m) == Some(5.0);
  }

  /**
   * A NaN monitor reading is skipped by the mean: readings 2, NaN, 6
   * normalise by 4 to 0.5, NaN, 1.5, and the frame of the NaN reading
   * becomes all NaN.
   */
  lemma MonitorNanExample()
    ensures NormaliseMonitor([Some(2.0), None, Some(6.0)]) == [Some(0.5), None, Some(1.5)]
    ensures DivideBy(10.0, NormaliseMonitor([Some(2.0), None, Some(6.0)])[1]) == None
  {
    var m: seq<Value> := [Some(2.0), None, Some(6.0)];
    var m1, m2: seq<Value> := [Some(2.0)], [Some(2.0), None];
    assert m1[..0] == [] && m2[..1] == m1 && m[..2] == m2;
    assert PresentSum(m1) == 2.0 && PresentCount(m1) == 1;
    assert PresentSum(m2) == 2.0 && PresentCount(m2) == 1;
    assert PresentSum(m) == 8.0 && PresentCount(m) == 2;
    assert NanMean(m) == Some(4.0);
  }
}

=== FILE: nanstats.dfy ===
/**
 * Values that may be missing, and the NaN-ignoring statistics numpy
 * offers over them (`nanmean`). A missing value is numpy's NaN; arithmetic
 * is over exact reals.
 */
module NanStats {
  import opened Wrappers

  /** One array element: `None` is NaN. */
  type Value = Option<real>

  /** Sum of the present elements of `s`. */
  function PresentSum(s: seq<Value>): real {
    if |s| == 0 then 0.0
    else (if s[|s| - 1].Some? then s[|s| - 1].value else 0.0) + PresentSum(s[..|s| - 1])
  }

  /** Number of present elements of `s`. */
  function PresentCount(s: seq<Value>): (n: nat)
    ensures n <= |s|
  {
    if |s| == 0 then 0
    else (if s[|s| - 1].Some? then 1 else 0) + PresentCount(s[..|s| - 1])
  }

  /** numpy's `nanmean`: the mean of the present elements, NaN when there are none. */
  function NanMean(s: seq<Value>): Value {
    var n := PresentCount(s);
    if n == 0 then None else Some(PresentSum(s) / n as real)
  }

  /** The mean is missing exactly when every element is missing. */
  lemma NanMeanMissing(s: seq<Value>)
    ensures NanMean(s) == None <==> forall k :: 0 <= k < |s| ==> s[k] == None
  {
    NoneCount(s);
  }

  lemma {:induction false} NoneCount(s: seq<Value>)
    ensures PresentCount(s) == 0 <==> forall k :: 0 <= k < |s| ==> s[k] == None
    decreases |s|
  {
    if |s| > 0 {
      var init := s[..|s| - 1];
      NoneCount(init);
      assert forall k :: 0 <= k < |init| ==> init[k] == s[k];
    }
  }

  predicate PresentWithin(s: seq<Value>, lo: real, hi: real) {
    forall k :: 0 <= k < |s| && s[k].Some? ==> lo <= s[k].value <= hi
  }

  /** Sum of the present elements, each less `d`. */
  function ShiftedSum(s: seq<Value>, d: real): real {
    if |s| == 0 then 0.0
    else (if s[|s| - 1].Some? then s[|s| - 1].value - d else 0.0) + ShiftedSum(s[..|s| - 1], d)
  }

  lemma {:induction false} ShiftedSumIdentity(s: seq<Value>, d: real)
    ensures ShiftedSum(s, d) == PresentSum(s) - d * PresentCount(s) as real
    decreases |s|
  {
    if |s| > 0 {
      ShiftedSumIdentity(s[..|s| - 1], d);
      var c := PresentCount(s[..|s| - 1]) as real;
      if s[|s| - 1].Some? {
        assert PresentCount(s) as real == c + 1.0;
        assert d * (c + 1.0) == d * c + d;
      }
    }
  }

  lemma {:induction false} ShiftedSumSign(s: seq<Value>, lo: real, hi: real)
    requires PresentWithin(s, lo, hi)
    ensures ShiftedSum(s, lo) >= 0.0 && ShiftedSum(s, hi) <= 0.0
    decreases |s|
  {
    if |s| > 0 {
      var init := s[..|s| - 1];
      assert PresentWithin(init, lo, hi) by {
        assert forall k :: 0 <= k < |init| ==> init[k] == s[k];
      }
      ShiftedSumSign(init, lo, hi);
    }
  }

  /** Bounding every present element bounds their sum by the count times the bound. */
  lemma PresentSumBounds(s: seq<Value>, lo: real, hi: real)
    requires PresentWithin(s, lo, hi)
    ensures lo * PresentCount(s) as real <= PresentSum(s) <= hi * PresentCount(s) as real
  {
    ShiftedSumSign(s, lo, hi);
    ShiftedSumIdentity(s, lo);
    ShiftedSumIdentity(s, hi);
  }

  /** The NaN-ignoring mean lies between any bounds of the present elements. */
  lemma NanMeanBounds(s: seq<Value>, lo: real, hi: real)
    requires PresentWithin(s, lo, hi)
    requires NanMean(s).Some?
    ensures lo <= NanMean(s).value <= hi
  {
    var n := PresentCount(s) as real;
    var t := PresentSum(s);
    PresentSumBounds(s, lo, hi);
    QuotientBounds(lo, hi, n, t);
  }

  lemma QuotientBounds(lo: real, hi: real, n: real, t: real)
    requires n > 0.0 && lo * n <= t <= hi * n
    ensures lo <= t / n <= hi
  {
    DivideMonotone(lo * n, t, n);
    DivideMonotone(t, hi * n, n);
  }

  lemma DivideMonotone(a: real, b: real, n: real)
    requires a <= b && n > 0.0
    ensures a / n <= b / n
  {
    assert b / n - a / n == (b - a) / n;
  }

  /** Sums and counts of present elements add up over concatenation. */
  lemma {:induction false} PresentAppend(s: seq<Value>, t: seq<Value>)
    ensures PresentSum(s + t) == PresentSum(s) + PresentSum(t)
    ensures PresentCount(s + t) == PresentCount(s) + PresentCount(t)
    decreases |t|
  {
    if |t| == 0 {
      assert s + t == s;
    } else {
      assert (s + t)[..|s + t| - 1] == s + t[..|t| - 1];
      PresentAppend(s, t[..|t| - 1]);
    }
  }
}

=== FILE: ndarray.dfy ===
/**
 * A numpy array of any rank: its shape and its elements in numpy's default
 * row-major (C) order, where the last axis varies fastest.
 */
module NdArrays {
  import opened Layout
  import opened Grids

  datatype NdArray<T> = NdArray(shape: seq<nat>, data: seq<T>) {

    /** The element count agrees with the shape, as it always does for a numpy array. */
    predicate Valid() {
      |data| == Product(shape)
    }

    predicate InRange3(f: nat, i: nat, j: nat) {
      |shape| == 3 && f < shape[0] && i < shape[1] && j < shape[2]
    }

    /** Row-major position of element `[f, i, j]`: `(f*H + i)*W + j`. */
    function Position3(f: nat, i: nat, j: nat): nat
      requires |shape| == 3
    {
      Linear3(j, i, f, shape[2], shape[1])
    }
  }

  lemma PositionInside<T>(a: NdArray<T>, f: nat, i: nat, j: nat)
    requires a.Valid() && a.InRange3(f, i, j)
    ensures a.Position3(f, i, j) < |a.data|
  {
    Product3(a.shape);
    LinearBound(j, i, f, a.shape[2], a.shape[1], a.shape[0]);
  }

  function Element3<T>(a: NdArray<T>, f: nat, i: nat, j: nat): T
    requires a.Valid() && a.InRange3(f, i, j)
  {
    PositionInside(a, f, i, j);
    a.data[a.Position3(f, i, j)]
  }

  /** The nested view of a three-dimensional array. */
  function AsGrid<T>(a: NdArray<T>): (g: Grid<T>)
    requires a.Valid() && |a.shape| == 3
    ensures Shaped(g, a.shape[0], a.shape[1], a.shape[2])
    ensures forall f: nat, i: nat, j: nat | a.InRange3(f, i, j) ::
      a.Position3(f, i, j) < |a.data| && g[f][i][j] == a.data[a.Position3(f, i, j)]
  {
    var g := seq(a.shape[0], f requires 0 <= f < a.shape[0] =>
      seq(a.shape[1], i requires 0 <= i < a.shape[1] =>
        seq(a.shape[2], j requires 0 <= j < a.shape[2] => Element3(a, f, i, j))));
    assert forall f: nat, i: nat, j: nat | a.InRange3(f, i, j) ::
      a.Position3(f, i, j) < |a.data| && g[f][i][j] == a.data[a.Position3(f, i, j)] by {
      forall f: nat, i: nat, j: nat | a.InRange3(f, i, j)
        ensures a.Position3(f, i, j) < |a.data| && g[f][i][j] == a.data[a.Position3(f, i, j)]
      {
        PositionInside(a, f, i, j);
      }
    }
    g
  }

  /**
   * The nested view lists the array's elements in the array's own order:
   * flattening it row by row gives the flat data back.
   */
  lemma AsGridFlattens<T>(a: NdArray<T>)
    requires a.Valid() && |a.shape| == 3
    ensures Flatten3(AsGrid(a)) == a.data
  {
    var frames, height, width := a.shape[0], a.shape[1], a.shape[2];
    Product3(a.shape);
    assert |a.data| == frames * (height * width);
    var outer := Chunks(a.data, height * width, frames);
    var rows := FrameRows(AsGrid(a));
    forall f | 0 <= f < frames
      ensures rows[f] == outer[f]
    {
      FrameIsChunk(a, f);
    }
    assert rows == outer;
    ConcatChunks(a.data, height * width, frames);
    Flatten3Frames(AsGrid(a));
  }

  /** Frame `f` of the nested view, flattened, is the `f`-th piece of `height*width` elements of the data. */
  lemma FrameIsChunk<T>(a: NdArray<T>, f: nat)
    requires a.Valid() && |a.shape| == 3 && f < a.shape[0]
    requires |a.data| == a.shape[0] * (a.shape[1] * a.shape[2])
    ensures Concat(AsGrid(a)[f]) == Chunks(a.data, a.shape[1] * a.shape[2], a.shape[0])[f]
  {
    var frames, height, width := a.shape[0], a.shape[1], a.shape[2];
    var c := Chunks(a.data, height * width, frames)[f];
    var frame := AsGrid(a)[f];
    var inner := Chunks(c, width, height);
    forall i | 0 <= i < height
      ensures frame[i] == inner[i]
    {
      forall j | 0 <= j < width
        ensures frame[i][j] == inner[i][j]
      {
        assert a.InRange3(f, i, j);
        BlockOffset(i, j, height, width);
        ChunkElement(c, width, height, i, j);
        ChunkElement(a.data, height * width, frames, f, i * width + j);
        LinearAsBlocks(j, i, f, width, height);
      }
    }
    assert frame == inner;
    ConcatChunks(c, width, height);
  }
}

=== FILE: rebin.dfy ===
/**
 * `rebin`: block-averaging downsampling of a (frames, height, width) stack.
 * Each frame is cropped to whole `bins × bins` blocks and every output pixel
 * is the NaN-ignoring mean of one block.
 */
module Rebinning {
  import opened Wrappers
  import opened Layout
  import opened NanStats
  import opened Grids
  import opened NdArrays

  datatype RebinError =
    | NotThreeD        // the array is not (frames, height, width)
    | NonPositiveBins  // a bin size of zero divides by zero; a negative one makes numpy's reshape fail

  /** `arr[:, :h, :w]`: each frame keeps its first `h` rows and `w` columns. */
  function Crop<T>(g: Grid<T>, height: nat, width: nat, h: nat, w: nat): (r: Grid<T>)
    requires FramesShaped(g, height, width) && h <= height && w <= width
    ensures Shaped(r, |g|, h, w)
    ensures forall f, i, j | 0 <= f < |g| && 0 <= i < h && 0 <= j < w :: r[f][i][j] == g[f][i][j]
  {
    seq(|g|, f requires 0 <= f < |g| => seq(h, i requires 0 <= i < h => g[f][i][..w]))
  }

  /**
   * The row-major reshape of a cropped stack to `(frames, nh, b, nw, b)`:
   * element `[f, i, p, j, q]` is pixel `(i*b + p, j*b + q)` of frame `f`.
   */
  function BlockView<T>(c: Grid<T>, nh: nat, nw: nat, b: nat): seq<seq<seq<seq<seq<T>>>>>
    requires FramesShaped(c, nh * b, nw * b)
  {
    seq(|c|, f requires 0 <= f < |c| =>
      seq(nh, i requires 0 <= i < nh =>
        seq(b, p requires 0 <= p < b =>
          seq(nw, j requires 0 <= j < nw =>
            seq(b, q requires 0 <= q < b =>
              BlockOffset(i, p, nh, b);
              BlockOffset(j, q, nw, b);
              c[f][i * b + p][j * b + q])))))
  }

  /** `nanmean` over axes 2 and 4 of the block view: one value per block. */
  function MeanOverBlocks(v: seq<seq<seq<seq<seq<Value>>>>>, nh: nat, nw: nat, b: nat): (r: Grid<Value>)
    requires forall f | 0 <= f < |v| :: |v[f]| == nh
    requires forall f, i | 0 <= f < |v| && 0 <= i < nh :: |v[f][i]| == b
    requires forall f, i, p | 0 <= f < |v| && 0 <= i < nh && 0 <= p < b :: |v[f][i][p]| == nw
    requires forall f, i, p, j | 0 <= f < |v| && 0 <= i < nh && 0 <= p < b && 0 <= j < nw :: |v[f][i][p][j]| == b
    ensures Shaped(r, |v|, nh, nw)
  {
    seq(|v|, f requires 0 <= f < |v| =>
      seq(nh, i requires 0 <= i < nh =>
        seq(nw, j requires 0 <= j < nw =>
          NanMean(Concat(seq(b, p requires 0 <= p < b => seq(b, q requires 0 <= q < b => v[f][i][p][j][q])))))))
  }

  /** The model of `rebin(arr, bins)`. */
  function Rebin(a: NdArray<Value>, bins: int): (r: Result<Grid<Value>, RebinError>)
    requires a.Valid()
    ensures |a.shape| != 3 ==> r == Failure(NotThreeD)
    ensures |a.shape| == 3 && bins <= 0 ==> r == Failure(NonPositiveBins)
    ensures |a.shape| == 3 && bins > 0 ==> r.Success? && Shaped(r.value, a.shape[0], a.shape[1] / bins, a.shape[2] / bins)
  {
    if |a.shape| != 3 then Failure(NotThreeD)
    else if bins <= 0 then Failure(NonPositiveBins)
    else Success(RebinFrames(AsGrid(a), a.shape[1], a.shape[2], bins))
  }

  /** Crop, reshape to blocks and average, on a stack of `height × width` frames. */
  function RebinFrames(g: Grid<Value>, height: nat, width: nat, bins: nat): (r: Grid<Value>)
    requires FramesShaped(g, height, width) && bins > 0
    ensures Shaped(r, |g|, height / bins, width / bins)
  {
    WholeBlocks(height, bins);
    WholeBlocks(width, bins);
    RebinBlocks(g, height, width, height / bins, width / bins, bins)
  }

  /** Crop to `nh × nw` whole blocks of `bins × bins`, reshape to blocks and average. */
  function RebinBlocks(g: Grid<Value>, height: nat, width: nat, nh: nat, nw: nat, bins: nat): (r: Grid<Value>)
    requires FramesShaped(g, height, width) && nh * bins <= height && nw * bins <= width
    ensures Shaped(r, |g|, nh, nw)
  {
    var cropped := Crop(g, height, width, nh * bins, nw * bins);
    MeanOverBlocks(BlockView(cropped, nh, nw, bins), nh, nw, bins)
  }

  // ---------------------------------------------------------------------
  // The rectangle a block covers, stated on the uncropped frame.

  predicate RectInside<T>(frame: seq<seq<T>>, r0: nat, c0: nat, h: nat, w: nat) {
    r0 + h <= |frame| && forall r | r0 <= r < r0 + h :: c0 + w <= |frame[r]|
  }

  /** Sum of the present pixels in rows `r0 .. r0+h-1` and columns `c0 .. c0+w-1`. */
  function RectSum(frame: seq<seq<Value>>, r0: nat, c0: nat, h: nat, w: nat): real
    requires RectInside(frame, r0, c0, h, w)
  {
    if h == 0 then 0.0
    else RectSum(frame, r0, c0, h - 1, w) + PresentSum(frame[r0 + h - 1][c0 .. c0 + w])
  }

  /** Number of present pixels in rows `r0 .. r0+h-1` and columns `c0 .. c0+w-1`. */
  function RectCount(frame: seq<seq<Value>>, r0: nat, c0: nat, h: nat, w: nat): nat
    requires RectInside(frame, r0, c0, h, w)
  {
    if h == 0 then 0
    else RectCount(frame, r0, c0, h - 1, w) + PresentCount(frame[r0 + h - 1][c0 .. c0 + w])
  }

  /** Mean of the present pixels of the rectangle; missing when it has none. */
  function RectMean(frame: seq<seq<Value>>, r0: nat, c0: nat, h: nat, w: nat): Value
    requires RectInside(frame, r0, c0, h, w)
  {
    var n := RectCount(frame, r0, c0, h, w);
    if n == 0 then None else Some(RectSum(frame, r0, c0, h, w) / n as real)
  }

  /** Concatenating the rectangle's row segments gives its sum and count. */
  lemma {:induction false} ConcatRect(rows: seq<seq<Value>>, frame: seq<seq<Value>>, r0: nat, c0: nat, h: nat, w: nat)
    requires RectInside(frame, r0, c0, h, w) && |rows| == h
    requires forall p | 0 <= p < h :: rows[p] == frame[r0 + p][c0 .. c0 + w]
    ensures PresentSum(Concat(rows)) == RectSum(frame, r0, c0, h, w)
    ensures PresentCount(Concat(rows)) == RectCount(frame, r0, c0, h, w)
    decreases h
  {
    if h > 0 {
      ConcatRect(rows[..h - 1], frame, r0, c0, h - 1, w);
      PresentAppend(Concat(rows[..h - 1]), rows[h - 1]);
    }
  }

  /** The rectangle has no present pixel exactly when every pixel in it is missing. */
  lemma {:induction false} RectCountZero(frame: seq<seq<Value>>, r0: nat, c0: nat, h: nat, w: nat)
    requires RectInside(frame, r0, c0, h, w)
    ensures RectCount(frame, r0, c0, h, w) == 0 <==>
      forall r, c | r0 <= r < r0 + h && c0 <= c < c0 + w :: frame[r][c] == None
    decreases h
  {
    if h > 0 {
      RectCountZero(frame, r0, c0, h - 1, w);
      var rl := r0 + h - 1;
      var last := frame[rl][c0 .. c0 + w];
      NoneCount(last);
      assert (forall k | 0 <= k < w :: last[k] == None) <==> (forall c | c0 <= c < c0 + w :: frame[rl][c] == None) by {
        forall c | c0 <= c < c0 + w
          ensures frame[rl][c] == last[c - c0]
        {
        }
      }
      assert (forall r, c | r0 <= r < r0 + h && c0 <= c < c0 + w :: frame[r][c] == None) <==>
        ((forall r, c | r0 <= r < rl && c0 <= c < c0 + w :: frame[r][c] == None) &&
         (forall c | c0 <= c < c0 + w :: frame[rl][c] == None));
    }
  }

  /** Element `[f, i, p, j, q]` of the block view is pixel `(i*bins + p, j*bins + q)` of frame `f`. */
  lemma ViewElement(c: Grid<Value>, nh: nat, nw: nat, bins: nat, f: nat, i: nat, p: nat, j: nat, q: nat)
    requires FramesShaped(c, nh * bins, nw * bins)
    requires f < |c| && i < nh && j < nw && p < bins && q < bins
    ensures i * bins + p < nh * bins && j * bins + q < nw * bins
    ensures BlockView(c, nh, nw, bins)[f][i][p][j][q] == c[f][i * bins + p][j * bins + q]
  {
    BlockOffset(i, p, nh, bins);
    BlockOffset(j, q, nw, bins);
  }

  /** Row segment `p` of block `(i, j)` in the block view is a row segment of the cropped frame. */
  lemma ViewSegment(c: Grid<Value>, nh: nat, nw: nat, bins: nat, f: nat, i: nat, j: nat, p: nat)
    requires FramesShaped(c, nh * bins, nw * bins)
    requires f < |c| && i < nh && j < nw && p < bins
    ensures i * bins + p < nh * bins && j * bins + bins <= nw * bins
    ensures seq(bins, q requires 0 <= q < bins => BlockView(c, nh, nw, bins)[f][i][p][j][q])
      == c[f][i * bins + p][j * bins .. j * bins + bins]
  {
    BlockOffset(i, p, nh, bins);
    BlockOffset(j, bins - 1, nw, bins);
    var row := c[f][i * bins + p];
    var seg := seq(bins, q requires 0 <= q < bins => BlockView(c, nh, nw, bins)[f][i][p][j][q]);
    var col := j * bins;
    forall q | 0 <= q < bins
      ensures seg[q] == row[col + q]
    {
      ViewElement(c, nh, nw, bins, f, i, p, j, q);
    }
  }

  /** Through crop and reshape, row segment `p` of block `(i, j)` is the matching segment of the uncropped frame. */
  lemma CroppedSegment(g: Grid<Value>, height: nat, width: nat, nh: nat, nw: nat, bins: nat, f: nat, i: nat, j: nat, p: nat)
    requires FramesShaped(g, height, width) && nh * bins <= height && nw * bins <= width
    requires f < |g| && i < nh && j < nw && p < bins
    ensures i * bins + p < height && j * bins + bins <= width
    ensures seq(bins, q requires 0 <= q < bins => BlockView(Crop(g, height, width, nh * bins, nw * bins), nh, nw, bins)[f][i][p][j][q])
      == g[f][i * bins + p][j * bins .. j * bins + bins]
  {
    var cropped := Crop(g, height, width, nh * bins, nw * bins);
    ViewSegment(cropped, nh, nw, bins, f, i, j, p);
    var row := i * bins + p;
    assert cropped[f][row][j * bins .. j * bins + bins] == g[f][row][j * bins .. j * bins + bins];
  }

  /** The rectangle of block `(i, j)` as its row segments. */
  function BlockSegments(frame: seq<seq<Value>>, r0: nat, c0: nat, b: nat): seq<seq<Value>>
    requires RectInside(frame, r0, c0, b, b)
  {
    seq(b, p requires 0 <= p < b => frame[r0 + p][c0 .. c0 + b])
  }

  /** Block `(i, j)` of frame `f`, read through crop and reshape, is the concatenation of the rectangle's row segments. */
  lemma BlockRows(g: Grid<Value>, height: nat, width: nat, nh: nat, nw: nat, bins: nat, f: nat, i: nat, j: nat)
    requires FramesShaped(g, height, width) && nh * bins <= height && nw * bins <= width
    requires f < |g| && i < nh && j < nw
    ensures RectInside(g[f], i * bins, j * bins, bins, bins)
    ensures RebinBlocks(g, height, width, nh, nw, bins)[f][i][j] == NanMean(Concat(BlockSegments(g[f], i * bins, j * bins, bins)))
  {
    BlockInside(g, height, width, nh, nw, bins, f, i, j);
    var v := BlockView(Crop(g, height, width, nh * bins, nw * bins), nh, nw, bins);
    var rows := seq(bins, p requires 0 <= p < bins => seq(bins, q requires 0 <= q < bins => v[f][i][p][j][q]));
    var want := BlockSegments(g[f], i * bins, j * bins, bins);
    forall p | 0 <= p < bins
      ensures rows[p] == want[p]
    {
      CroppedSegment(g, height, width, nh, nw, bins, f, i, j, p);
    }
    assert rows == want;
  }

  /** Block `(i, j)` lies inside the frame. */
  lemma BlockInside(g: Grid<Value>, height: nat, width: nat, nh: nat, nw: nat, bins: nat, f: nat, i: nat, j: nat)
    requires FramesShaped(g, height, width) && nh * bins <= height && nw * bins <= width
    requires f < |g| && i < nh && j < nw
    ensures 0 <= i * bins && 0 <= j * bins
    ensures RectInside(g[f], i * bins, j * bins, bins, bins)
  {
    MulNat(i, bins);
    MulNat(j, bins);
    if bins > 0 {
      BlockOffset(i, bins - 1, nh, bins);
      BlockOffset(j, bins - 1, nw, bins);
    }
  }

  /** The mean of a square's concatenated row segments is the square's rectangle mean. */
  lemma SquareMean(frame: seq<seq<Value>>, r0: nat, c0: nat, b: nat)
    requires RectInside(frame, r0, c0, b, b)
    ensures NanMean(Concat(BlockSegments(frame, r0, c0, b))) == RectMean(frame, r0, c0, b, b)
    ensures RectMean(frame, r0, c0, b, b) == None <==>
      forall r, c | r0 <= r < r0 + b && c0 <= c < c0 + b :: frame[r][c] == None
  {
    ConcatRect(BlockSegments(frame, r0, c0, b), frame, r0, c0, b, b);
    RectCountZero(frame, r0, c0, b, b);
  }

  /** Each pixel of the downsampled stack is the mean of its block's rectangle, missing exactly when the whole block is. */
  lemma RebinBlocksCell(g: Grid<Value>, height: nat, width: nat, nh: nat, nw: nat, bins: nat, f: nat, i: nat, j: nat)
    requires FramesShaped(g, height, width) && nh * bins <= height && nw * bins <= width
    requires f < |g| && i < nh && j < nw
    ensures RectInside(g[f], i * bins, j * bins, bins, bins)
    ensures RebinBlocks(g, height, width, nh, nw, bins)[f][i][j] == RectMean(g[f], i * bins, j * bins, bins, bins)
    ensures RebinBlocks(g, height, width, nh, nw, bins)[f][i][j] == None <==>
      forall r, c | i * bins <= r < i * bins + bins && j * bins <= c < j * bins + bins :: g[f][r][c] == None
  {
    BlockInside(g, height, width, nh, nw, bins, f, i, j);
    BlockRows(g, height, width, nh, nw, bins, f, i, j);
    SquareMean(g[f], i * bins, j * bins, bins);
  }

  /**
   * Each output pixel `(f, i, j)` of `rebin` is the mean of the present input
   * pixels in rows `i*bins .. i*bins+bins-1` and columns
   * `j*bins .. j*bins+bins-1` of frame `f`, and missing exactly when every
   * pixel of that block is missing.
   */
  lemma RebinCell(a: NdArray<Value>, bins: nat, f: nat, i: nat, j: nat)
    requires a.Valid() && |a.shape| == 3 && bins > 0
    requires f < a.shape[0] && i < a.shape[1] / bins && j < a.shape[2] / bins
    ensures RectInside(AsGrid(a)[f], i * bins, j * bins, bins, bins)
    ensures Rebin(a, bins).value[f][i][j] == RectMean(AsGrid(a)[f], i * bins, j * bins, bins, bins)
    ensures Rebin(a, bins).value[f][i][j] == None <==>
      forall r, c | i * bins <= r < i * bins + bins && j * bins <= c < j * bins + bins :: AsGrid(a)[f][r][c] == None
  {
    var height, width := a.shape[1], a.shape[2];
    WholeBlocks(height, bins);
    WholeBlocks(width, bins);
    RebinBlocksCell(AsGrid(a), height, width, height / bins, width / bins, bins, f, i, j);
  }

  /** Two stacks that agree on the cropped extent have the same crop. */
  lemma CropAgree(g: Grid<Value>, g': Grid<Value>, height: nat, width: nat, h: nat, w: nat)
    requires FramesShaped(g, height, width) && FramesShaped(g', height, width) && |g| == |g'|
    requires h <= height && w <= width
    requires forall f, r, c | 0 <= f < |g| && 0 <= r < h && 0 <= c < w :: g[f][r][c] == g'[f][r][c]
    ensures Crop(g, height, width, h, w) == Crop(g', height, width, h, w)
  {
    var x, y := Crop(g, height, width, h, w), Crop(g', height, width, h, w);
    forall f | 0 <= f < |g|
      ensures x[f] == y[f]
    {
      forall r | 0 <= r < h
        ensures x[f][r] == y[f][r]
      {
        assert forall c | 0 <= c < w :: x[f][r][c] == y[f][r][c];
      }
    }
  }

  /**
   * Rows and columns beyond the last whole block never influence `rebin`:
   * two arrays of one shape that agree on the cropped extent rebin alike.
   */
  lemma RebinIgnoresRemainder(a: NdArray<Value>, a': NdArray<Value>, bins: nat)
    requires a.Valid() && a'.Valid() && a.shape == a'.shape && |a.shape| == 3 && bins > 0
    requires forall f, r, c | 0 <= f < a.shape[0] && 0 <= r < (a.shape[1] / bins) * bins && 0 <= c < (a.shape[2] / bins) * bins ::
      AsGrid(a)[f][r][c] == AsGrid(a')[f][r][c]
    ensures Rebin(a, bins) == Rebin(a', bins)
  {
    WholeBlocks(a.shape[1], bins);
    WholeBlocks(a.shape[2], bins);
    CropAgree(AsGrid(a), AsGrid(a'), a.shape[1], a.shape[2], (a.shape[1] / bins) * bins, (a.shape[2] / bins) * bins);
  }

  predicate PixelsWithin(g: Grid<Value>, lo: real, hi: real) {
    forall f, r, c | 0 <= f < |g| && 0 <= r < |g[f]| && 0 <= c < |g[f][r]| && g[f][r][c].Some? ::
      lo <= g[f][r][c].value <= hi
  }

  /** A square's row segments, taken from a stack whose present pixels lie in `[lo, hi]`, concatenate to such a sequence. */
  lemma SquareWithin(g: Grid<Value>, f: nat, r0: nat, c0: nat, b: nat, lo: real, hi: real)
    requires PixelsWithin(g, lo, hi) && f < |g| && RectInside(g[f], r0, c0, b, b)
    ensures PresentWithin(Concat(BlockSegments(g[f], r0, c0, b)), lo, hi)
  {
    var rows := BlockSegments(g[f], r0, c0, b);
    var all := Concat(rows);
    forall k | 0 <= k < |all| && all[k].Some?
      ensures lo <= all[k].value <= hi
    {
      ConcatMembers(rows, all[k]);
      var p, q :| 0 <= p < |rows| && 0 <= q < |rows[p]| && rows[p][q] == all[k];
      assert g[f][r0 + p][c0 + q] == all[k];
    }
  }

  /** One output pixel stays within the range of the present input pixels. */
  lemma CellWithin(g: Grid<Value>, height: nat, width: nat, nh: nat, nw: nat, bins: nat, lo: real, hi: real, f: nat, i: nat, j: nat)
    requires FramesShaped(g, height, width) && nh * bins <= height && nw * bins <= width
    requires f < |g| && i < nh && j < nw
    requires PixelsWithin(g, lo, hi)
    requires RebinBlocks(g, height, width, nh, nw, bins)[f][i][j].Some?
    ensures lo <= RebinBlocks(g, height, width, nh, nw, bins)[f][i][j].value <= hi
  {
    BlockInside(g, height, width, nh, nw, bins, f, i, j);
    BlockRows(g, height, width, nh, nw, bins, f, i, j);
    SquareWithin(g, f, i * bins, j * bins, bins, lo, hi);
    NanMeanBounds(Concat(BlockSegments(g[f], i * bins, j * bins, bins)), lo, hi);
  }

  /** Averaging never leaves the range of the input: if every present input pixel lies in `[lo, hi]`, so does every present output pixel. */
  lemma RebinBlocksWithin(g: Grid<Value>, height: nat, width: nat, nh: nat, nw: nat, bins: nat, lo: real, hi: real)
    requires FramesShaped(g, height, width) && nh * bins <= height && nw * bins <= width
    requires PixelsWithin(g, lo, hi)
    ensures PixelsWithin(RebinBlocks(g, height, width, nh, nw, bins), lo, hi)
  {
    var out: Grid<Value> := RebinBlocks(g, height, width, nh, nw, bins);
    forall f: nat, i: nat, j: nat | 0 <= f < |out| && 0 <= i < |out[f]| && 0 <= j < |out[f][i]| && out[f][i][j].Some?
      ensures lo <= out[f][i][j].value <= hi
    {
      CellWithin(g, height, width, nh, nw, bins, lo, hi, f, i, j);
    }
  }

  /** `rebin` never leaves the range of the present input values. */
  lemma RebinWithin(a: NdArray<Value>, bins: nat, lo: real, hi: real)
    requires a.Valid() && |a.shape| == 3 && bins > 0
    requires PresentWithin(a.data, lo, hi)
    ensures PixelsWithin(Rebin(a, bins).value, lo, hi)
  {
    var g: Grid<Value> := AsGrid(a);
    assert PixelsWithin(g, lo, hi) by {
      forall f: nat, r: nat, c: nat | 0 <= f < |g| && 0 <= r < |g[f]| && 0 <= c < |g[f][r]| && g[f][r][c].Some?
        ensures lo <= g[f][r][c].value <= hi
      {
        assert a.InRange3(f, r, c);
      }
    }
    var height, width := a.shape[1], a.shape[2];
    WholeBlocks(height, bins);
    WholeBlocks(width, bins);
    RebinBlocksWithin(g, height, width, height / bins, width / bins, bins, lo, hi);
  }
}

=== FILE: voxelcodec.dfy ===
/**
 * The pure part of `save_vtk` / `load_vtk`: a volume and its three
 * coordinate axes become an image header (origin, spacing, dimensions)
 * and a flat scalar array stored with the first axis varying fastest
 * (column-major, numpy's `order="F"`), and back.
 */
module VoxelCodec {
  import opened Wrappers
  import opened Layout
  import opened NanStats
  import opened Grids

  datatype CodecError =
    | AxisTooShort          // fewer than three axes, or an axis with fewer than two points
    | ScalarCountMismatch   // the scalar count is not the product of the dimensions

  /** A three-dimensional numpy array: its shape and its elements. */
  datatype Volume = Volume(d0: nat, d1: nat, d2: nat, cells: Grid<Value>) {
    predicate Valid() {
      Shaped(cells, d0, d1, d2)
    }
  }

  /** The content of an image-data file: header and scalars. */
  datatype VoxelImage = VoxelImage(origin: seq<real>, spacing: seq<real>, dims: seq<nat>, scalars: seq<Value>) {
    /** The file format always carries three origins, spacings and dimensions. */
    predicate HeaderWellFormed() {
      |origin| == 3 && |spacing| == 3 && |dims| == 3
    }
  }

  /**
   * `array.flatten(order="F")`: plane by plane along the last axis, column
   * by column within a plane, so element `[i, j, k]` goes to position
   * `i + d0*(j + d1*k)`.
   */
  function FlattenF<T>(g: Grid<T>, d0: nat, d1: nat, d2: nat): (r: seq<T>)
    requires Shaped(g, d0, d1, d2)
    ensures |r| == d0 * d1 * d2
    ensures forall i: nat, j: nat, k: nat | i < d0 && j < d1 && k < d2 ::
      Linear3(i, j, k, d0, d1) < |r| && r[Linear3(i, j, k, d0, d1)] == g[i][j][k]
  {
    var r := Concat(Planes(g, d0, d1, d2));
    ConcatUniformLength(Planes(g, d0, d1, d2), d1 * d0);
    ProductOrder(d0, d1, d2);
    forall i: nat, j: nat, k: nat | i < d0 && j < d1 && k < d2
      ensures Linear3(i, j, k, d0, d1) < |r| && r[Linear3(i, j, k, d0, d1)] == g[i][j][k]
    {
      FlatPosition(g, d0, d1, d2, i, j, k);
    }
    r
  }

  /** The planes of the volume, each flattened column by column. */
  function Planes<T>(g: Grid<T>, d0: nat, d1: nat, d2: nat): (ps: seq<seq<T>>)
    requires Shaped(g, d0, d1, d2)
    ensures |ps| == d2 && Uniform(ps, d1 * d0)
    ensures forall k | 0 <= k < d2 :: ps[k] == Concat(Plane(g, d0, d1, d2, k))
  {
    var ps := seq(d2, k requires 0 <= k < d2 => Concat(Plane(g, d0, d1, d2, k)));
    forall k | 0 <= k < d2
      ensures |ps[k]| == d1 * d0
    {
      ConcatUniformLength(Plane(g, d0, d1, d2, k), d0);
    }
    ps
  }

  lemma FlatPosition<T>(g: Grid<T>, d0: nat, d1: nat, d2: nat, i: nat, j: nat, k: nat)
    requires Shaped(g, d0, d1, d2) && i < d0 && j < d1 && k < d2
    ensures Linear3(i, j, k, d0, d1) < |Concat(Planes(g, d0, d1, d2))|
    ensures Concat(Planes(g, d0, d1, d2))[Linear3(i, j, k, d0, d1)] == g[i][j][k]
  {
    var ps := Planes(g, d0, d1, d2);
    PlaneElement(g, d0, d1, d2, i, j, k);
    BlockOffset(j, i, d1, d0);
    ConcatUniformAt(ps, d1 * d0, k, j * d0 + i);
    LinearAsBlocks(i, j, k, d0, d1);
  }

  /** Plane `k` of the volume as its `d1` columns of `d0` elements. */
  function Plane<T>(g: Grid<T>, d0: nat, d1: nat, d2: nat, k: nat): (p: seq<seq<T>>)
    requires Shaped(g, d0, d1, d2) && k < d2
    ensures |p| == d1 && Uniform(p, d0)
    ensures forall j, i | 0 <= j < d1 && 0 <= i < d0 :: p[j][i] == g[i][j][k]
  {
    seq(d1, j requires 0 <= j < d1 => seq(d0, i requires 0 <= i < d0 => g[i][j][k]))
  }

  lemma PlaneElement<T>(g: Grid<T>, d0: nat, d1: nat, d2: nat, i: nat, j: nat, k: nat)
    requires Shaped(g, d0, d1, d2) && i < d0 && j < d1 && k < d2
    ensures j * d0 + i < |Concat(Plane(g, d0, d1, d2, k))|
    ensures Concat(Plane(g, d0, d1, d2, k))[j * d0 + i] == g[i][j][k]
  {
    var p := Plane(g, d0, d1, d2, k);
    ConcatUniformAt(p, d0, j, i);
    assert p[j][i] == g[i][j][k];
  }

  function ElementF<T>(v: seq<T>, d0: nat, d1: nat, d2: nat, i: nat, j: nat, k: nat): T
    requires |v| == d0 * d1 * d2 && i < d0 && j < d1 && k < d2
  {
    LinearBound(i, j, k, d0, d1, d2);
    v[Linear3(i, j, k, d0, d1)]
  }

  /** `numpy_data.reshape(dims, order='F')`: the inverse reading of a first-axis-fastest sequence. */
  function ReshapeF<T>(v: seq<T>, d0: nat, d1: nat, d2: nat): (g: Grid<T>)
    requires |v| == d0 * d1 * d2
    ensures Shaped(g, d0, d1, d2)
    ensures forall i: nat, j: nat, k: nat | i < d0 && j < d1 && k < d2 ::
      Linear3(i, j, k, d0, d1) < |v| && g[i][j][k] == v[Linear3(i, j, k, d0, d1)]
  {
    var g := seq(d0, i requires 0 <= i < d0 =>
      seq(d1, j requires 0 <= j < d1 =>
        seq(d2, k requires 0 <= k < d2 => ElementF(v, d0, d1, d2, i, j, k))));
    assert forall i: nat, j: nat, k: nat | i < d0 && j < d1 && k < d2 ::
      Linear3(i, j, k, d0, d1) < |v| && g[i][j][k] == v[Linear3(i, j, k, d0, d1)] by {
      forall i: nat, j: nat, k: nat | i < d0 && j < d1 && k < d2
        ensures Linear3(i, j, k, d0, d1) < |v| && g[i][j][k] == v[Linear3(i, j, k, d0, d1)]
      {
        LinearBound(i, j, k, d0, d1, d2);
      }
    }
    g
  }

  /** Reshaping with `order='F'` undoes flattening with `order="F"`. */
  lemma ReshapeFlatten<T>(g: Grid<T>, d0: nat, d1: nat, d2: nat)
    requires Shaped(g, d0, d1, d2)
    ensures ReshapeF(FlattenF(g, d0, d1, d2), d0, d1, d2) == g
  {
    var back := ReshapeF(FlattenF(g, d0, d1, d2), d0, d1, d2);
    GridExtensional(back, g, d0, d1, d2);
  }

  /** Flattening with `order="F"` undoes reshaping with `order='F'`. */
  lemma FlattenReshape<T>(v: seq<T>, d0: nat, d1: nat, d2: nat)
    requires |v| == d0 * d1 * d2
    ensures FlattenF(ReshapeF(v, d0, d1, d2), d0, d1, d2) == v
  {
    var g := ReshapeF(v, d0, d1, d2);
    var w := d1 * d0;
    assert |v| == d2 * w;
    var outer := Chunks(v, w, d2);
    var planes := Planes(g, d0, d1, d2);
    forall k | 0 <= k < d2
      ensures planes[k] == outer[k]
    {
      PlaneIsChunk(v, g, d0, d1, d2, k);
    }
    assert planes == outer;
    ConcatChunks(v, w, d2);
  }

  /** Plane `k` of the reshaped volume, flattened, is the `k`-th piece of `d0*d1` scalars. */
  lemma PlaneIsChunk<T>(v: seq<T>, g: Grid<T>, d0: nat, d1: nat, d2: nat, k: nat)
    requires |v| == d2 * (d1 * d0) && |v| == d0 * d1 * d2 && k < d2
    requires g == ReshapeF(v, d0, d1, d2)
    ensures Concat(Plane(g, d0, d1, d2, k)) == Chunks(v, d1 * d0, d2)[k]
  {
    var c := Chunks(v, d1 * d0, d2)[k];
    var p := Plane(g, d0, d1, d2, k);
    var inner := Chunks(c, d0, d1);
    forall j | 0 <= j < d1
      ensures p[j] == inner[j]
    {
      forall i | 0 <= i < d0
        ensures p[j][i] == inner[j][i]
      {
        BlockOffset(j, i, d1, d0);
        ChunkElement(c, d0, d1, j, i);
        ChunkElement(v, d1 * d0, d2, k, j * d0 + i);
        LinearAsBlocks(i, j, k, d0, d1);
      }
    }
    assert p == inner;
    ConcatChunks(c, d0, d1);
  }

  /** `dims` values `origin + i*spacing`, as `load_vtk` rebuilds each axis. */
  function Axis(origin: real, spacing: real, n: nat): (ax: seq<real>)
    ensures |ax| == n
  {
    seq(n, i requires 0 <= i < n => origin + i as real * spacing)
  }

  /** An axis with at least two points whose every point lies on the line through its first two. */
  predicate EvenlySpaced(ax: seq<real>) {
    |ax| >= 2 && forall i | 0 <= i < |ax| :: ax[i] == ax[0] + i as real * (ax[1] - ax[0])
  }

  /** The axes a saved header needs: three of them, each with a first and a second point. */
  predicate AxesReadable(coords: seq<seq<real>>) {
    |coords| >= 3 && |coords[0]| >= 2 && |coords[1]| >= 2 && |coords[2]| >= 2
  }

  /** The pure part of `save_vtk(array, coords, path)`: header from the axes and shape, scalars in column-major order. */
  function Save(vol: Volume, coords: seq<seq<real>>): (r: Result<VoxelImage, CodecError>)
    requires vol.Valid()
    ensures r.Success? <==> AxesReadable(coords)
    ensures r.Success? ==> (
      && r.value.HeaderWellFormed()
      && r.value.dims == [vol.d0, vol.d1, vol.d2]
      && (forall a | 0 <= a < 3 :: r.value.origin[a] == coords[a][0] && r.value.spacing[a] == coords[a][1] - coords[a][0])
      && |r.value.scalars| == vol.d0 * vol.d1 * vol.d2
      && (forall i: nat, j: nat, k: nat | i < vol.d0 && j < vol.d1 && k < vol.d2 ::
            Linear3(i, j, k, vol.d0, vol.d1) < |r.value.scalars|
            && r.value.scalars[Linear3(i, j, k, vol.d0, vol.d1)] == vol.cells[i][j][k]))
  {
    if !AxesReadable(coords) then Failure(AxisTooShort)
    else
      var flat := FlattenF(vol.cells, vol.d0, vol.d1, vol.d2);
      Success(VoxelImage(
        [coords[0][0], coords[1][0], coords[2][0]],
        [coords[0][1] - coords[0][0], coords[1][1] - coords[1][0], coords[2][1] - coords[2][0]],
        [vol.d0, vol.d1, vol.d2],
        flat))
  }

  /** The pure part of `load_vtk(path)`: the volume reshaped in column-major order and the three rebuilt axes. */
  function Load(img: VoxelImage): (r: Result<(Volume, seq<seq<real>>), CodecError>)
    requires img.HeaderWellFormed()
    ensures r.Success? <==> |img.scalars| == img.dims[0] * img.dims[1] * img.dims[2]
    ensures r.Success? ==> (
      && r.value.0.Valid()
      && [r.value.0.d0, r.value.0.d1, r.value.0.d2] == img.dims
      && |r.value.1| == 3
      && (forall a | 0 <= a < 3 :: |r.value.1[a]| == img.dims[a]
            && forall i | 0 <= i < img.dims[a] :: r.value.1[a][i] == img.origin[a] + i as real * img.spacing[a]))
  {
    var d0, d1, d2 := img.dims[0], img.dims[1], img.dims[2];
    if |img.scalars| != d0 * d1 * d2 then Failure(ScalarCountMismatch)
    else
      Success((Volume(d0, d1, d2, ReshapeF(img.scalars, d0, d1, d2)), Axes(img)))
  }

  /** The three axes `load_vtk` rebuilds from the header. */
  function Axes(img: VoxelImage): (axes: seq<seq<real>>)
    requires img.HeaderWellFormed()
    ensures |axes| == 3
    ensures forall a | 0 <= a < 3 :: (
      && |axes[a]| == img.dims[a]
      && forall i | 0 <= i < img.dims[a] :: axes[a][i] == img.origin[a] + i as real * img.spacing[a])
  {
    var axes := seq(3, a requires 0 <= a < 3 => Axis(img.origin[a], img.spacing[a], img.dims[a]));
    assert forall a | 0 <= a < 3 :: axes[a] == Axis(img.origin[a], img.spacing[a], img.dims[a]);
    axes
  }

  /** An evenly spaced axis is rebuilt exactly from its first point and step. */
  lemma EvenAxisRebuilt(ax: seq<real>)
    requires EvenlySpaced(ax)
    ensures Axis(ax[0], ax[1] - ax[0], |ax|) == ax
  {
    var back := Axis(ax[0], ax[1] - ax[0], |ax|);
    assert forall i | 0 <= i < |ax| :: back[i] == ax[i];
  }

  /**
   * Loading a saved volume gives back the same array exactly; each axis is
   * rebuilt from its first point and first step with the array's extent
   * along it, so an evenly spaced axis of that length comes back unchanged.
   */
  lemma LoadAfterSave(vol: Volume, coords: seq<seq<real>>)
    requires vol.Valid() && AxesReadable(coords)
    ensures Save(vol, coords).Success?
    ensures Save(vol, coords).value.HeaderWellFormed()
    ensures var back := Load(Save(vol, coords).value);
      && back.Success?
      && back.value.0 == vol
      && (forall a | 0 <= a < 3 :: back.value.1[a] == Axis(coords[a][0], coords[a][1] - coords[a][0], [vol.d0, vol.d1, vol.d2][a]))
      && (forall a | 0 <= a < 3 && EvenlySpaced(coords[a]) && |coords[a]| == [vol.d0, vol.d1, vol.d2][a] :: back.value.1[a] == coords[a])
  {
    ReshapeFlatten(vol.cells, vol.d0, vol.d1, vol.d2);
    forall a | 0 <= a < 3 && EvenlySpaced(coords[a]) && |coords[a]| == [vol.d0, vol.d1, vol.d2][a]
      ensures Axis(coords[a][0], coords[a][1] - coords[a][0], [vol.d0, vol.d1, vol.d2][a]) == coords[a]
    {
      EvenAxisRebuilt(coords[a]);
    }
  }

  /** Saving a loaded volume with its rebuilt axes reproduces the file's header and scalars, when every dimension has two points. */
  lemma SaveAfterLoad(img: VoxelImage)
    requires img.HeaderWellFormed()
    requires |img.scalars| == img.dims[0] * img.dims[1] * img.dims[2]
    requires img.dims[0] >= 2 && img.dims[1] >= 2 && img.dims[2] >= 2
    ensures Load(img).Success?
    ensures Save(Load(img).value.0, Load(img).value.1) == Success(img)
  {
    FlattenReshape(img.scalars, img.dims[0], img.dims[1], img.dims[2]);
    var ax := Load(img).value.1;
    assert forall a | 0 <= a < 3 :: ax[a][0] == img.origin[a] && ax[a][1] - ax[a][0] == img.spacing[a];
    assert [ax[0][0], ax[1][0], ax[2][0]] == img.origin;
    assert [ax[0][1] - ax[0][0], ax[1][1] - ax[1][0], ax[2][1] - ax[2][0]] == img.spacing;
  }
}

=== FILE: wrappers.dfy ===
/** Failure-compatible wrappers shared by every module of the model. */
module Wrappers {

  /** An optional value; `None` also stands for a floating-point NaN. */
  datatype Option<+T> = None | Some(value: T)

  /** The outcome of an operation that pyRSM can abort with an exception. */
  datatype Result<+R, +E> = Success(value: R) | Failure(error: E) {

    predicate IsFailure() {
      Failure?
    }

    function PropagateFailure<U>(): Result<U, E>
      requires Failure?
    {
      Failure(error)
    }

    function Extract(): R
      requires Success?
    {
      value
    }
  }
}
